=== FILE: README.md ===
# Disposal tree and ancestor paths

A model of two pieces of the IntelliJ platform:

- **ObjectNode**, the node of the disposer's object tree. Each node owns an
  object, links to its parent, and keeps an insertion-ordered child set. It
  also has an own modification stamp and a child stamp that is propagated
  up the tree. `execute(disposeTree, action)` walks a subtree children-first,
  from the last child to the first. When disposing, it also takes the
  subtree apart: child sets are cleared, objects are unbound and nodes are
  unlinked from their parents.
- **VfsUtilCore**'s ancestor helpers: `isAncestor` (both overloads),
  `getRelativePath` and `isInvalidLink`.

The tree is an arena, `map<NodeId, Node<T>>`, with parent and child links
held as ids. A ghost rank (a parent ranks strictly below its children)
witnesses that the links are acyclic. The module `ObjectNodes`
(object_nodes.dfy) holds the specification as values:

- `Propagated`, the climb of `propagateChildModification`;
- `Attach` / `Detach` / `AddedChild`, the links `addChild` and
  `removeChild` set;
- `Subtree`;
- `Walk`, the events an action sees during `execute`.

The class `ObjectTrees.ObjectTree` (object_tree.dfy) updates the arena in
place. It also holds the state of the ObjectTree collaborator that
ObjectNode uses:

- the object-to-node map;
- the root objects;
- the modification counter;
- the guard set of nodes in execution;
- a trace of what the action was told and run.

Every structural method (`Propagate`, `LinkChild`, `AddChild`, `RemoveChild`, `Unbind` and the `execute` methods) is proved against the value-level functions. The small ObjectTree operations (`GetNextModification`, `PutNode`, `RemoveRootObject`, `NewNode`) state their new state against the old one directly. The class
invariant `Valid()` says that:

- the links are sound;
- every bound object maps to the node that owns it;
- every parent's child stamp covers the modification of each child it lists;
- no own or child stamp is ahead of the last stamp `getNextModification` handed out.

In VfsUtilCore (vfs_util_core.dfy), a virtual file is a record in a finite
table: its file system, its name and its parent. `Chain` is the walk up the
parent links. `RelativePath` is the string `getRelativePath` assembles from
the names met on that walk.

`getRelativePath` writes a separator only once something has been written.
The model follows the code here. When a name at the bottom of the walk is
empty, it leaves no separator behind. With non-empty names, the result is
the plain join of the names from the top down (`RelativePathIsJoin`).

## Model

| member | source | states |
|---|---|---|
| VfsUtilCore.IsAncestor | platform/core-api/src/com/intellij/openapi/vfs/VfsUtilCore.java:49-57 | true exactly when both files are on the same file system and `ancestor` is met walking up from `file` (from its parent when strict) |
| VfsUtilCore.IsAncestorIo | platform/core-api/src/com/intellij/openapi/vfs/VfsUtilCore.java:59-67 | true exactly when `ancestor` is met walking up from `file` (from its parent when strict), with no file-system check |
| VfsUtilCore.AncestorReflexivity | platform/core-api/src/com/intellij/openapi/vfs/VfsUtilCore.java:45-57 | a file is its own non-strict ancestor and never its own strict ancestor |
| VfsUtilCore.StrictIsParentLineage | platform/core-api/src/com/intellij/openapi/vfs/VfsUtilCore.java:49-57 | a strict ancestor of a file is exactly a non-strict ancestor of its parent on the same file system |
| VfsUtilCore.MeasureRelativePath | platform/core-api/src/com/intellij/openapi/vfs/VfsUtilCore.java:82-92 | the first walk finds the ancestor exactly when it is on the chain; the length is the names' lengths plus one separator between names counted once something was counted |
| VfsUtilCore.WriteBackwards | platform/core-api/src/com/intellij/openapi/vfs/VfsUtilCore.java:103-105 | writing a name backwards from `index` puts it in front of what the array already holds there |
| VfsUtilCore.PrependName | platform/core-api/src/com/intellij/openapi/vfs/VfsUtilCore.java:99-105 | a separator is written first only when something is already there, then the name; both precede the old text |
| VfsUtilCore.FillRelativePath | platform/core-api/src/com/intellij/openapi/vfs/VfsUtilCore.java:94-108 | filling the measured array from its end yields the names below the ancestor, top-down, separated as measured |
| VfsUtilCore.FilledTextIsAssembled | platform/core-api/src/com/intellij/openapi/vfs/VfsUtilCore.java:82-108 | the text the two walks produce is the reversed, trimmed names joined by the separator |
| VfsUtilCore.GetRelativePath | platform/core-api/src/com/intellij/openapi/vfs/VfsUtilCore.java:79-109 | null on another file system or when `ancestor` is not on the chain, otherwise the assembled relative path |
| VfsUtilCore.RelativePathToSelf | platform/core-api/src/com/intellij/openapi/vfs/VfsUtilCore.java:79-109 | the path of a file relative to itself is the empty string |
| VfsUtilCore.RelativePathExistsIffAncestor | platform/core-api/src/com/intellij/openapi/vfs/VfsUtilCore.java:69-109 | a relative path exists exactly when `ancestor` is a non-strict ancestor of `file` |
| VfsUtilCore.RelativePathIsJoin | platform/core-api/src/com/intellij/openapi/vfs/VfsUtilCore.java:79-109 | with non-empty names the path is the names from the top down joined by the separator, as long as their lengths plus one separator per consecutive pair |
| VfsUtilCore.SplitJoin | platform/core-api/src/com/intellij/openapi/vfs/VfsUtilCore.java:97-107 | joining separator-free names and splitting at the separator gives the names back |
| VfsUtilCore.RelativePathSplits | platform/core-api/src/com/intellij/openapi/vfs/VfsUtilCore.java:79-109 | a relative path of separator-free, non-empty names splits back into those names, top-down |
| VfsUtilCore.IsInvalidLink | platform/core-api/src/com/intellij/openapi/vfs/VfsUtilCore.java:253-256 | a link is invalid exactly when its canonical target is missing, is the link itself, or is a strict ancestor of it |
| VfsUtilCore.LinkToAncestorIsCycle | platform/core-api/src/com/intellij/openapi/vfs/VfsUtilCore.java:253-256 | a target that is a strict ancestor is another file, and one the link lies below |
| ObjectNodes.Modification | platform/util/src/com/intellij/openapi/util/objectTree/ObjectNode.java:204-206 | `getModification` is at least both stamps and equal to one of them |
| ObjectNodes.AddToSetIsSet | platform/util/src/com/intellij/openapi/util/objectTree/ObjectNode.java:67 | adding to the child set keeps it free of duplicates, the child is then in it, nothing else joins, and a new child goes last |
| ObjectNodes.RemoveFromSet | platform/util/src/com/intellij/openapi/util/objectTree/ObjectNode.java:77 | removing from the child set removes exactly that child, shrinking the set by one when it was there and changing nothing otherwise |
| ObjectNodes.RemoveKeepsOrder | platform/util/src/com/intellij/openapi/util/objectTree/ObjectNode.java:77 | removing a present child cuts it out at its position: the children before and after it keep their order |
| ObjectNodes.PropagatedStamps | platform/util/src/com/intellij/openapi/util/objectTree/ObjectNode.java:195-202 | propagation touches only child stamps, never lowers one, leaves the start at `s` or above, and only raises nodes on the start's line that were below `s`, to `s` |
| ObjectNodes.PropagatedClimbs | platform/util/src/com/intellij/openapi/util/objectTree/ObjectNode.java:195-202 | the climb goes on while it raises: every ancestor up to the first one already at `s` ends at `s` |
| ObjectNodes.PropagatedStops | platform/util/src/com/intellij/openapi/util/objectTree/ObjectNode.java:195-202 | the climb ends at the first node of the line whose child stamp is already at `s`: from there up, every node is left exactly as it was |
| ObjectNodes.PropagatedUpTo | platform/util/src/com/intellij/openapi/util/objectTree/ObjectNode.java:195-202 | propagating a stamp no later than `t` leaves every own and child stamp at most `t` |
| ObjectNodes.PropagatedCovers | platform/util/src/com/intellij/openapi/util/objectTree/ObjectNode.java:195-202 | when only the start lagged, and by no more than `s`, propagating `s` restores coverage of every child by its parent |
| ObjectNodes.AncestorsCover | platform/util/src/com/intellij/openapi/util/objectTree/ObjectNode.java:195-206 | with coverage, every ancestor of a listed node has a child stamp at least that node's modification |
| ObjectNodes.ListedKept | platform/util/src/com/intellij/openapi/util/objectTree/ObjectNode.java:63-70 | a node stays listed, and each of its ancestors in its parent's child set, when every parent link on its line is kept and child sets there only grow |
| ObjectNodes.AttachLinksGrow | platform/util/src/com/intellij/openapi/util/objectTree/ObjectNode.java:65-67 | linking `c` below `p` keeps every parent link on `p`'s line and only adds to the child sets there |
| ObjectNodes.AttachStaysListed | platform/util/src/com/intellij/openapi/util/objectTree/ObjectNode.java:63-70 | when `p` is listed up to the root, the new child is listed up to the root after linking |
| ObjectNodes.AttachWellFormed | platform/util/src/com/intellij/openapi/util/objectTree/ObjectNode.java:63-67 | linking a parentless child below a node outside its subtree keeps the links sound and acyclic |
| ObjectNodes.AttachCovers | platform/util/src/com/intellij/openapi/util/objectTree/ObjectNode.java:63-70 | right after linking, only the new parent may lag, and only up to the child's modification |
| ObjectNodes.NewNodeWellFormed | platform/util/src/com/intellij/openapi/util/objectTree/ObjectNode.java:46-53 | adding a childless node under an existing parent, ranked one below it, keeps the arena well-formed and covered |
| ObjectNodes.AddedChildCovered | platform/util/src/com/intellij/openapi/util/objectTree/ObjectNode.java:63-72 | attaching a child and propagating its modification from `p` gives a well-formed, covered arena with the same links as the attachment |
| ObjectNodes.AddedChildLinks | platform/util/src/com/intellij/openapi/util/objectTree/ObjectNode.java:63-72 | after `addChild` the child's parent is `p`, `p`'s child set gained the child once, and `p` covers the child's modification |
| ObjectNodes.AddedChildListed | platform/util/src/com/intellij/openapi/util/objectTree/ObjectNode.java:63-72 | when `p` is listed up to the root, after `addChild` the child is too, and every ancestor of the child, not only `p`, has a child stamp at least the child's modification |
| ObjectNodes.AddChildEffect | platform/util/src/com/intellij/openapi/util/objectTree/ObjectNode.java:63-72 | after `addChild` the child's parent is `p`, `p`'s child set gained the child once and coverage holds everywhere; every ancestor of the child covers its modification, `p` always and the ones above when `p` was listed up to the root |
| ObjectNodes.DetachWellFormed | platform/util/src/com/intellij/openapi/util/objectTree/ObjectNode.java:77-78 | unlisting a child and clearing its parent keeps the links sound and coverage intact |
| ObjectNodes.RemovalRaisesLine | platform/util/src/com/intellij/openapi/util/objectTree/ObjectNode.java:74-83 | when every stamp is below the fresh one, `removeChild` sets the child stamp of every node from `p` up to the root to the fresh stamp, so each one's `getModification`, the root's included, strictly rises |
| ObjectNodes.RemoveChildEffect | platform/util/src/com/intellij/openapi/util/objectTree/ObjectNode.java:74-83 | after `removeChild` of a listed child, it is out of the set and parentless, `p`'s child stamp reaches the fresh stamp and coverage holds everywhere; when no stamp was ahead of the counter, every node from `p` to the root ends at the fresh stamp and its modification strictly rises |
| ObjectNodes.RemoveChildFrame | platform/util/src/com/intellij/openapi/util/objectTree/ObjectNode.java:74-83 | `removeChild` changes only the child's parent link and `p`'s child set, keeps the child's own children, and only raises stamps |
| ObjectNodes.SubtreeLine | platform/util/src/com/intellij/openapi/util/objectTree/ObjectNode.java:63-67 | reaching a node down through child sets agrees with reaching it up through parent links |
| ObjectNodes.SiblingSubtreesDisjoint | platform/util/src/com/intellij/openapi/util/objectTree/ObjectNode.java:63-67 | the subtrees of two different children share no node |
| ObjectNodes.WalkFrame | platform/util/src/com/intellij/openapi/util/objectTree/ObjectNode.java:111-127 | the subtree and the walk of a node depend only on the objects and child sets of the subtree's nodes |
| ObjectNodes.WalkCancels | platform/util/src/com/intellij/openapi/util/objectTree/ObjectNode.java:126-135 | a walk ends early exactly when the action was cancelled on some node it reached; failures do not end it |
| ObjectNodes.WalkVisits | platform/util/src/com/intellij/openapi/util/objectTree/ObjectNode.java:107-157 | an uncancelled walk is told about the node first, runs the action on it last, and runs it on every other node of the subtree in between |
| ObjectNodes.WalkRunsAll | platform/util/src/com/intellij/openapi/util/objectTree/ObjectNode.java:107-157 | an uncancelled walk runs the action on the object of every node of the subtree |
| ObjectNodes.WalkFromCancelledStays | platform/util/src/com/intellij/openapi/util/objectTree/ObjectNode.java:116-118 | once the later children's walk was cancelled, the earlier children add nothing |
| ObjectNodes.SubtreesFromStep | platform/util/src/com/intellij/openapi/util/objectTree/ObjectNode.java:116-118 | the children's subtrees from `i` on are the one at `i` plus the later ones, and these do not overlap |
| ObjectTrees.ObjectTree.GetNextModification | platform/util/src/com/intellij/openapi/util/objectTree/ObjectNode.java:80 | each stamp is one more than the last handed out; nothing else changes |
| ObjectTrees.ObjectTree.PutNode | platform/util/src/com/intellij/openapi/util/objectTree/ObjectNode.java:68 | binds the object to its node, or unbinds it for null, keeping every binding pointing at the owner |
| ObjectTrees.ObjectTree.RemoveRootObject | platform/util/src/com/intellij/openapi/util/objectTree/ObjectNode.java:144 | drops the object from the roots; nothing else changes |
| ObjectTrees.ObjectTree.NewNode | platform/util/src/com/intellij/openapi/util/objectTree/ObjectNode.java:46-53 | a fresh node with the given parent link, object and own stamp, a null child set and a zero child stamp; the invariant is kept |
| ObjectTrees.ObjectTree.Children | platform/util/src/com/intellij/openapi/util/objectTree/ObjectNode.java:94-99 | the children, without duplicates, each pointing back at the node; none for a null child set |
| ObjectTrees.ObjectTree.GetChildrenArray | platform/util/src/com/intellij/openapi/util/objectTree/ObjectNode.java:56-61 | the snapshot is the current child sequence, empty for a null or empty set |
| ObjectTrees.ObjectTree.Propagate | platform/util/src/com/intellij/openapi/util/objectTree/ObjectNode.java:195-202 | the new arena is `Propagated` of the old one; links and the rest of the state are unchanged |
| ObjectTrees.ObjectTree.LinkChild | platform/util/src/com/intellij/openapi/util/objectTree/ObjectNode.java:65-67 | the new arena is `Attach` of the old one, and coverage fails at most at `p`, by at most the child's modification |
| ObjectTrees.ObjectTree.AddChild | platform/util/src/com/intellij/openapi/util/objectTree/ObjectNode.java:63-72 | the new arena is `AddedChild` of the old one, the child's object is bound to it, and the invariant is kept |
| ObjectTrees.ObjectTree.RemoveChild | platform/util/src/com/intellij/openapi/util/objectTree/ObjectNode.java:74-83 | for a listed child: the new arena is `Detach` followed by one fresh stamp propagated from `p`, and the child's object is unbound; otherwise nothing changes |
| ObjectTrees.ObjectTree.ExecuteChildren | platform/util/src/com/intellij/openapi/util/objectTree/ObjectNode.java:113-118 | the trace grows by the children's walk from last to first, and the result reports its cancellation; when disposing and not cancelled, every child subtree is taken apart |
| ObjectTrees.ObjectTree.ExecuteChild | platform/util/src/com/intellij/openapi/util/objectTree/ObjectNode.java:116-118 | one turn of the loop: the trace grows by the walk of the `i`-th child's subtree, a cancellation there is the cancellation of the whole loop, and when disposing only subtree links change and, uncancelled, the children from `i` on are taken apart |
| ObjectTrees.ObjectTree.RunAndUnlink | platform/util/src/com/intellij/openapi/util/objectTree/ObjectNode.java:120-147 | clears the child set when disposing and runs the action; unless it was cancelled, the object is unbound and the node leaves its parent's child set, or its object leaves the roots; after an unlink every node from the old parent up to the root has a child stamp at least the counter |
| ObjectTrees.ObjectTree.Unbind | platform/util/src/com/intellij/openapi/util/objectTree/ObjectNode.java:137-147 | the object is unbound; with a parent the node leaves its child set (one stamp used) and becomes parentless, without one its object leaves the roots; with a parent the new arena is `Detach` followed by the fresh stamp propagated from the parent, so every node from the parent up to the root has a child stamp at least the counter; the only links that change are the node's parent link and the parent's child set, and stamps only rise |
| ObjectTrees.ObjectTree.RunNode | platform/util/src/com/intellij/openapi/util/objectTree/ObjectNode.java:120-147 | after a finished child loop: the trace gains the action's run on the node, and when disposing and not cancelled the whole subtree is taken apart and every node from the old parent up to the root has a child stamp at least the counter |
| ObjectTrees.ObjectTree.Execute | platform/util/src/com/intellij/openapi/util/objectTree/ObjectNode.java:107-157 | the trace grows by exactly `Walk` of the subtree; without disposal nothing else changes; with disposal only the links of subtree nodes and the parent's child set change and stamps only rise, and uncancelled it leaves every subtree node parentless and childless, its objects unbound, the node out of its parent's child set, and every node from the old parent up to the root with a child stamp at least the counter |
| ObjectTrees.ObjectTree.FindChildEqualTo | platform/util/src/com/intellij/openapi/util/objectTree/ObjectNode.java:208-219 | none exactly when no child's object is equal; otherwise the object of the first equal child in insertion order |
| ObjectTrees.ObjectTree.AssertNoReferencesKept | platform/util/src/com/intellij/openapi/util/objectTree/ObjectNode.java:174-181 | succeeds exactly when no node of the subtree owns the object |

## Left out

- ObjectTree.java is not part of this model. Its `putNode`, `removeRootObject`, `getNextModification`, guard set and `executeActionWithRecursiveGuard` are modelled as fields and methods of `ObjectTrees.ObjectTree`, using only the effects ObjectNode relies on.
- The `synchronized (myTree.treeLock)` blocks: the model is single-threaded.
- `myTree`, the debug allocation trace, `toString` and the plain getters (`getObject`, `getParent`, `getOwnModification`, `getChildModification`, `getTrace`, `getAllocation`) are not modelled as members. They are the record fields themselves.
- `fireExecuted` and `LOG.error` are left out because they are listener and logging side effects. A failing action is the `Failed` outcome in the trace, and the walk goes on.
- `action.execute` is a total function `run` from object to outcome. `ProcessCanceledException` is the `Cancelled` outcome. The exception re-wrapping is not modelled.
- ObjectTrees.ObjectTree.Execute: returns whether a cancellation ended the walk, where `execute` returns `true` and throws on cancellation.
- ObjectTrees.ObjectTree.Execute: requires that no node of the subtree is already in execution. The guard's behaviour on re-entry belongs to ObjectTree.java, which is not part of this model.
- ObjectTrees.ObjectTree.Execute: requires that the node's parent, if any, lists it. The constructor sets a parent link without listing the node, and `removeChild` would then leave that link in place; the model does not cover that case.
- ObjectTrees.ObjectTree.Execute: with disposal, the modification counter is only stated not to decrease. The exact number of stamps used is not stated.
- ObjectTrees.ObjectTree.AddChild: requires that the child has no other parent and is not an ancestor of `p`. The source does not check this; its callers ensure it. An ancestor of `p` as child would close a cycle, which the acyclic arena cannot hold. A child with another parent would be listed by two parents while pointing at one, which breaks the arena's rule that every listed child points back at its parent.
- ObjectTrees.ObjectTree.NewNode: requires the own stamp to be no later than the counter. In the program every stamp comes from `getNextModification`; the bound is what the invariant on stamps needs.
- `beforeTreeExecution` is called outside the `try` of the per-node loop. If it throws, `ProcessCanceledException` included, the exception leaves `execute` before any child runs. In the model the `Before` event can neither fail nor be cancelled.
- The action is a function of the object alone. It can neither call back into the tree nor change it while `execute` runs.
- ObjectTrees.ObjectTree.RemoveChild: the source's `assert myChildren != null` is a precondition.
- `getChildren` returns a live unmodifiable view. `ObjectTrees.ObjectTree.Children` is its value at the time of the call, so later changes seen through the view are not modelled.
- `findChildEqualTo` calls `equals` against its argument, which becomes the predicate `equalTo`. `assertNoReferencesKept` compares by identity, which is equality on `T`. Its Java `assert` failing is the result `false`.
- The 64-bit `long` stamps are unbounded integers. Overflow after 2^63 stamps is not modelled.
- VfsUtilCore: a file system is an id, and `equals` on files is equality of table ids. `getCanonicalFile` is resolved by the file system, so it is the parameter `target` of `IsInvalidLink`.
- VfsUtilCore.MeasureRelativePath: `length` is an unbounded integer. The 32-bit `int` in `getRelativePath` could overflow on paths longer than 2^31 characters; that is not modelled.
- VfsUtilCore's other helpers (I/O, URLs, iteration) are outside the modelled part.

=== FILE: object_nodes.dfy ===
/**
 * The disposal tree of ObjectNode.java as values: an arena mapping node ids
 * to node records whose parent and child links are ids. The class in
 * object_tree.dfy holds such an arena and updates it in place; everything
 * here is what its contracts are stated and proved with.
 */
module ObjectNodes {
  import opened Options

  type NodeId = nat

  /**
   * One ObjectNode: the owned object, the parent link, the insertion-ordered
   * child set (`None` for the source's null set), the stamp given at
   * construction and the highest stamp propagated from below.
   */
  datatype Node<T> = Node(obj: T, parent: Option<NodeId>, children: Option<seq<NodeId>>, own: int, childMod: int)

  type Arena<T> = map<NodeId, Node<T>>

  /** The children as a sequence; a null child set has none. */
  function Kids<T>(node: Node<T>): (r: seq<NodeId>)
  {
    if node.children.Some? then node.children.value else []
  }

  /** `getModification`: the larger of the own stamp and the child stamp. */
  function Modification<T>(node: Node<T>): (r: int)
    ensures r >= node.own && r >= node.childMod
    ensures r == node.own || r == node.childMod
  {
    if node.own < node.childMod then node.childMod else node.own
  }

  predicate NoDup<T(==)>(s: seq<T>)
  {
    forall i, j :: 0 <= i < j < |s| ==> s[i] != s[j]
  }

  /** `LinkedHashSet.add`: appends `x` unless it is already there. */
  function AddToSet<T(==)>(s: seq<T>, x: T): (r: seq<T>)
  {
    if x in s then s else s + [x]
  }

  /** `LinkedHashSet.remove`: drops the first occurrence of `x`, keeping the order of the rest. */
  function Remove<T(==)>(s: seq<T>, x: T): (r: seq<T>)
  {
    if s == [] then []
    else if s[0] == x then s[1..]
    else [s[0]] + Remove(s[1..], x)
  }

  /** Adding to a set keeps it duplicate-free, and the element is then in it once. */
  lemma AddToSetIsSet<T>(s: seq<T>, x: T)
    requires NoDup(s)
    ensures var r := AddToSet(s, x);
      NoDup(r) && x in r && forall y :: y in r <==> y in s || y == x
    ensures x !in s ==> AddToSet(s, x)[..|s|] == s
    ensures |s| <= |AddToSet(s, x)| <= |s| + 1
    ensures forall i :: 0 <= i < |s| ==> AddToSet(s, x)[i] == s[i]
    ensures forall i :: |s| <= i < |AddToSet(s, x)| ==> AddToSet(s, x)[i] == x
  {
  }

  /** Removing from a duplicate-free sequence removes exactly that element. */
  lemma {:induction false} RemoveFromSet<T>(s: seq<T>, x: T)
    requires NoDup(s)
    ensures var r := Remove(s, x);
      NoDup(r) && (forall y :: y in r <==> y in s && y != x)
      && (x in s ==> |r| == |s| - 1) && (x !in s ==> r == s)
  {
    if s != [] {
      assert NoDup(s[1..]) by {
        forall i, j | 0 <= i < j < |s[1..]| ensures s[1..][i] != s[1..][j] {
          assert s[1..][i] == s[i + 1] && s[1..][j] == s[j + 1];
        }
      }
      if s[0] == x {
        forall y ensures y in s[1..] <==> y in s && y != x {
          if y in s[1..] {
            var k :| 0 <= k < |s[1..]| && s[1..][k] == y;
            assert s[k + 1] == y;
          }
          if y in s && y != x {
            var k :| 0 <= k < |s| && s[k] == y;
            assert s[1..][k - 1] == y;
          }
        }
      } else {
        RemoveFromSet(s[1..], x);
        var r := Remove(s[1..], x);
        assert s == [s[0]] + s[1..];
        assert s[0] !in s[1..] by {
          forall k | 0 <= k < |s[1..]| ensures s[1..][k] != s[0] {
            assert s[1..][k] == s[k + 1];
          }
        }
        assert NoDup([s[0]] + r) by {
          forall i, j | 0 <= i < j < |[s[0]] + r| ensures ([s[0]] + r)[i] != ([s[0]] + r)[j] {
            if i == 0 {
              assert ([s[0]] + r)[j] == r[j - 1];
              assert r[j - 1] in r;
            } else {
              assert ([s[0]] + r)[i] == r[i - 1] && ([s[0]] + r)[j] == r[j - 1];
            }
          }
        }
      }
    }
  }

  /** Removing drops one occurrence of `x` and keeps the others in their order. */
  lemma {:induction false} RemoveKeepsOrder<T>(s: seq<T>, x: T)
    requires x in s
    ensures exists k :: 0 <= k < |s| && s[k] == x && Remove(s, x) == s[..k] + s[k + 1..]
  {
    if s[0] == x {
      assert Remove(s, x) == s[..0] + s[0 + 1..];
    } else {
      assert x in s[1..];
      RemoveKeepsOrder(s[1..], x);
      var k :| 0 <= k < |s[1..]| && s[1..][k] == x && Remove(s[1..], x) == s[1..][..k] + s[1..][k + 1..];
      var r := Remove(s[1..], x);
      assert Remove(s, x) == [s[0]] + r;
      assert s[..k + 1] == [s[0]] + s[1..][..k];
      assert s[k + 1 + 1..] == s[1..][k + 1..];
      assert Remove(s, x) == s[..k + 1] + s[k + 1 + 1..];
      assert s[k + 1] == x;
    }
  }

  /** Removing the last element of a duplicate-free sequence leaves the others. */
  lemma {:induction false} RemoveLast<T>(s: seq<T>)
    requires NoDup(s) && s != []
    ensures Remove(s, s[|s| - 1]) == s[..|s| - 1]
  {
    if |s| > 1 {
      assert s[0] != s[|s| - 1];
      assert NoDup(s[1..]) by {
        forall i, j | 0 <= i < j < |s[1..]| ensures s[1..][i] != s[1..][j] {
          assert s[1..][i] == s[i + 1] && s[1..][j] == s[j + 1];
        }
      }
      RemoveLast(s[1..]);
      assert s[1..][|s[1..]| - 1] == s[|s| - 1];
      assert s[..|s| - 1] == [s[0]] + s[1..][..|s[1..]| - 1];
    }
  }

  /**
   * The links of one node are sound: its parent is in the arena and ranked
   * below it, each child is in the arena and points back to it as its
   * parent, and no child is listed twice.
   */
  ghost predicate NodeOk<T>(nodes: Arena<T>, rank: map<NodeId, nat>, bound: nat, id: NodeId)
    requires id in nodes && nodes.Keys <= rank.Keys
  {
    var node := nodes[id];
    && rank[id] < bound
    && (node.parent.Some? ==> node.parent.value in nodes && rank[node.parent.value] < rank[id])
    && (forall i :: 0 <= i < |Kids(node)| ==> Kids(node)[i] in nodes && nodes[Kids(node)[i]].parent == Some(id))
    && NoDup(Kids(node))
  }

  /**
   * Every node's links are sound. `rank` is a ghost witness of acyclicity:
   * a parent always ranks strictly below its child, and all ranks stay below `bound`.
   */
  ghost predicate WellFormed<T>(nodes: Arena<T>, rank: map<NodeId, nat>, bound: nat)
  {
    && nodes.Keys <= rank.Keys
    && forall id {:trigger NodeOk(nodes, rank, bound, id)} :: id in nodes ==> NodeOk(nodes, rank, bound, id)
  }

  /** A listed child is in the arena and ranks strictly above its parent. */
  lemma KidRank<T>(nodes: Arena<T>, rank: map<NodeId, nat>, bound: nat, n: NodeId, i: nat)
    requires WellFormed(nodes, rank, bound) && n in nodes && i < |Kids(nodes[n])|
    ensures Kids(nodes[n])[i] in nodes && rank[n] < rank[Kids(nodes[n])[i]] < bound
  {
    assert NodeOk(nodes, rank, bound, n);
    assert NodeOk(nodes, rank, bound, Kids(nodes[n])[i]);
  }

  /** The node and its ancestors, walking up the parent links. */
  ghost function Line<T>(nodes: Arena<T>, rank: map<NodeId, nat>, bound: nat, x: NodeId): (l: seq<NodeId>)
    requires WellFormed(nodes, rank, bound) && x in nodes
    ensures 1 <= |l| && l[0] == x
    ensures forall i :: 0 <= i < |l| ==> l[i] in nodes && rank[l[i]] <= rank[x]
    decreases rank[x]
  {
    assert NodeOk(nodes, rank, bound, x);
    match nodes[x].parent
    case None => [x]
    case Some(p) => [x] + Line(nodes, rank, bound, p)
  }

  /** Two nodes agree on everything but the propagated child stamp. */
  predicate SameLinks<T(==)>(a: Node<T>, b: Node<T>)
  {
    a.obj == b.obj && a.parent == b.parent && a.children == b.children && a.own == b.own
  }

  /** Two arenas have the same nodes, differing at most in their child stamps. */
  ghost predicate SameShape<T>(a: Arena<T>, b: Arena<T>)
  {
    a.Keys == b.Keys && forall m :: m in a ==> SameLinks(a[m], b[m])
  }

  /** Well-formedness does not depend on the stamps. */
  lemma ShapeWellFormed<T>(a: Arena<T>, b: Arena<T>, rank: map<NodeId, nat>, bound: nat)
    requires SameShape(a, b) && WellFormed(a, rank, bound)
    ensures WellFormed(b, rank, bound)
  {
    forall id | id in b
      ensures NodeOk(b, rank, bound, id)
    {
      assert NodeOk(a, rank, bound, id);
      assert SameLinks(a[id], b[id]);
      forall i | 0 <= i < |Kids(b[id])|
        ensures Kids(b[id])[i] in b && b[Kids(b[id])[i]].parent == Some(id)
      {
        assert SameLinks(a[Kids(a[id])[i]], b[Kids(a[id])[i]]);
      }
    }
  }

  /** Nor does the ancestor line. */
  lemma {:induction false} ShapeLine<T>(a: Arena<T>, b: Arena<T>, rank: map<NodeId, nat>, bound: nat, x: NodeId)
    requires SameShape(a, b) && WellFormed(a, rank, bound) && WellFormed(b, rank, bound) && x in a
    ensures Line(a, rank, bound, x) == Line(b, rank, bound, x)
    decreases rank[x]
  {
    assert NodeOk(a, rank, bound, x);
    assert SameLinks(a[x], b[x]);
    if a[x].parent.Some? {
      ShapeLine(a, b, rank, bound, a[x].parent.value);
    }
  }

  /** The child stamp of `id` is at least the modification of each of its listed children. */
  ghost predicate Covers<T>(nodes: Arena<T>, id: NodeId)
    requires id in nodes
  {
    forall i :: 0 <= i < |Kids(nodes[id])| && Kids(nodes[id])[i] in nodes ==>
      nodes[id].childMod >= Modification(nodes[Kids(nodes[id])[i]])
  }

  /** Every node's child stamp covers its children: stamps reach every parent. */
  ghost predicate Covered<T>(nodes: Arena<T>)
  {
    forall id {:trigger Covers(nodes, id)} :: id in nodes ==> Covers(nodes, id)
  }

  /**
   * Covered, except at `x`, whose children may still exceed its child stamp
   * as long as they do not exceed `s`: the state in which
   * `propagateChildModification(s)` is called on `x`.
   */
  ghost predicate CoveredExcept<T>(nodes: Arena<T>, x: NodeId, s: int)
  {
    && (forall id {:trigger Covers(nodes, id)} :: id in nodes && id != x ==> Covers(nodes, id))
    && (x in nodes ==> forall i :: 0 <= i < |Kids(nodes[x])| && Kids(nodes[x])[i] in nodes ==>
          nodes[x].childMod >= Modification(nodes[Kids(nodes[x])[i]]) || Modification(nodes[Kids(nodes[x])[i]]) <= s)
  }

  /**
   * `propagateChildModification(s)` on `x`: when the child stamp is below
   * `s` it is raised to `s` and the parent is asked next; otherwise the
   * climb stops.
   */
  ghost function Propagated<T>(nodes: Arena<T>, rank: map<NodeId, nat>, bound: nat, x: NodeId, s: int): (r: Arena<T>)
    requires WellFormed(nodes, rank, bound) && x in nodes
    ensures r.Keys == nodes.Keys
    decreases rank[x]
  {
    if nodes[x].childMod < s then
      var raised := nodes[x := nodes[x].(childMod := s)];
      assert NodeOk(nodes, rank, bound, x);
      ShapeWellFormed(nodes, raised, rank, bound);
      if nodes[x].parent.Some? then Propagated(raised, rank, bound, nodes[x].parent.value, s) else raised
    else nodes
  }

  /**
   * Propagation touches only child stamps, never lowers one, leaves `x` at
   * `s` or above, and changes only nodes of `x`'s line that were below `s`, to `s`.
   */
  lemma {:induction false} PropagatedStamps<T>(nodes: Arena<T>, rank: map<NodeId, nat>, bound: nat, x: NodeId, s: int)
    requires WellFormed(nodes, rank, bound) && x in nodes
    ensures var r := Propagated(nodes, rank, bound, x, s);
      && SameShape(nodes, r) && WellFormed(r, rank, bound)
      && r[x].childMod >= s
      && (forall y :: y in nodes ==> r[y].childMod >= nodes[y].childMod)
      && (forall y :: y in nodes && r[y].childMod != nodes[y].childMod ==>
            r[y].childMod == s && nodes[y].childMod < s && y in Line(nodes, rank, bound, x))
    decreases rank[x]
  {
    assert NodeOk(nodes, rank, bound, x);
    if nodes[x].childMod < s {
      var raised := nodes[x := nodes[x].(childMod := s)];
      ShapeWellFormed(nodes, raised, rank, bound);
      if nodes[x].parent.Some? {
        var p := nodes[x].parent.value;
        PropagatedStamps(raised, rank, bound, p, s);
        ShapeLine(nodes, raised, rank, bound, p);
        assert Line(nodes, rank, bound, x) == [x] + Line(nodes, rank, bound, p);
      }
    }
  }

  /**
   * The climb goes on exactly while it raises: every node of `x`'s line up
   * to the first one already at `s` ends at `s`.
   */
  lemma {:induction false} PropagatedClimbs<T>(nodes: Arena<T>, rank: map<NodeId, nat>, bound: nat, x: NodeId, s: int, j: nat)
    requires WellFormed(nodes, rank, bound) && x in nodes
    requires j < |Line(nodes, rank, bound, x)|
    requires forall i :: 0 <= i <= j ==> nodes[Line(nodes, rank, bound, x)[i]].childMod < s
    ensures Propagated(nodes, rank, bound, x, s)[Line(nodes, rank, bound, x)[j]].childMod == s
    decreases rank[x]
  {
    assert NodeOk(nodes, rank, bound, x);
    var l := Line(nodes, rank, bound, x);
    assert nodes[l[0]].childMod < s;
    var raised := nodes[x := nodes[x].(childMod := s)];
    ShapeWellFormed(nodes, raised, rank, bound);
    if nodes[x].parent.Some? {
      var p := nodes[x].parent.value;
      var lp := Line(nodes, rank, bound, p);
      assert l == [x] + lp;
      ShapeLine(nodes, raised, rank, bound, p);
      if j > 0 {
        assert l[j] == lp[j - 1];
        assert x !in lp;
        forall i | 0 <= i <= j - 1 ensures raised[lp[i]].childMod < s {
          assert lp[i] == l[i + 1];
        }
        PropagatedClimbs(raised, rank, bound, p, s, j - 1);
      } else {
        PropagatedStamps(raised, rank, bound, p, s);
      }
    }
  }

  /**
   * The climb stops at the first node of `x`'s line whose child stamp is
   * already at `s` or above: from that node up, nothing changes.
   */
  lemma {:induction false} PropagatedStops<T>(nodes: Arena<T>, rank: map<NodeId, nat>, bound: nat, x: NodeId, s: int, j: nat)
    requires WellFormed(nodes, rank, bound) && x in nodes
    requires j < |Line(nodes, rank, bound, x)| && nodes[Line(nodes, rank, bound, x)[j]].childMod >= s
    ensures var l := Line(nodes, rank, bound, x);
      forall k :: j <= k < |l| ==> Propagated(nodes, rank, bound, x, s)[l[k]] == nodes[l[k]]
    decreases rank[x]
  {
    assert NodeOk(nodes, rank, bound, x);
    var l := Line(nodes, rank, bound, x);
    if nodes[x].childMod < s {
      var raised := nodes[x := nodes[x].(childMod := s)];
      ShapeWellFormed(nodes, raised, rank, bound);
      var p := nodes[x].parent.value;
      var lp := Line(nodes, rank, bound, p);
      assert l == [x] + lp;
      assert forall i :: 0 <= i < |lp| ==> lp[i] != x;
      ShapeLine(nodes, raised, rank, bound, p);
      assert lp[j - 1] == l[j];
      PropagatedStops(raised, rank, bound, p, s, j - 1);
      assert Propagated(nodes, rank, bound, x, s) == Propagated(raised, rank, bound, p, s);
      forall k | j <= k < |l|
        ensures Propagated(nodes, rank, bound, x, s)[l[k]] == nodes[l[k]]
      {
        assert l[k] == lp[k - 1];
      }
    }
  }

  /** Neither the own nor the child stamp of `id` is above `s`. */
  ghost predicate StampOk<T>(nodes: Arena<T>, s: int, id: NodeId)
    requires id in nodes
  {
    nodes[id].own <= s && nodes[id].childMod <= s
  }

  /** No own or child stamp of the arena is above `s`. */
  ghost predicate StampsUpTo<T>(nodes: Arena<T>, s: int)
  {
    forall id {:trigger StampOk(nodes, s, id)} :: id in nodes ==> StampOk(nodes, s, id)
  }

  /** Replacing one node by one whose stamps are at most `t` keeps every stamp at most `t`. */
  lemma UpdatedUpTo<T>(nodes: Arena<T>, id: NodeId, node: Node<T>, t: int)
    requires StampsUpTo(nodes, t) && node.own <= t && node.childMod <= t
    ensures StampsUpTo(nodes[id := node], t)
  {
    var r := nodes[id := node];
    forall m | m in r
      ensures StampOk(r, t, m)
    {
      if m != id {
        assert StampOk(nodes, t, m);
      }
    }
  }

  /** Linking moves no stamp. */
  lemma AttachUpTo<T>(nodes: Arena<T>, p: NodeId, c: NodeId, t: int)
    requires p in nodes && c in nodes && StampsUpTo(nodes, t)
    ensures StampsUpTo(Attach(nodes, p, c), t)
  {
    assert StampOk(nodes, t, c) && StampOk(nodes, t, p);
    var linked := nodes[c := nodes[c].(parent := Some(p))];
    UpdatedUpTo(nodes, c, nodes[c].(parent := Some(p)), t);
    UpdatedUpTo(linked, p, linked[p].(children := Some(AddToSet(Kids(linked[p]), c))), t);
  }

  /** Unlinking moves no stamp. */
  lemma DetachUpTo<T>(nodes: Arena<T>, p: NodeId, c: NodeId, t: int)
    requires p in nodes && c in nodes && StampsUpTo(nodes, t)
    ensures StampsUpTo(Detach(nodes, p, c), t)
  {
    assert StampOk(nodes, t, c) && StampOk(nodes, t, p);
    var unlisted := nodes[p := nodes[p].(children := Some(Remove(Kids(nodes[p]), c)))];
    UpdatedUpTo(nodes, p, nodes[p].(children := Some(Remove(Kids(nodes[p]), c))), t);
    UpdatedUpTo(unlisted, c, unlisted[c].(parent := None), t);
  }

  /** Propagating a stamp no later than `t` keeps every stamp at most `t`. */
  lemma PropagatedUpTo<T>(nodes: Arena<T>, rank: map<NodeId, nat>, bound: nat, x: NodeId, s: int, t: int)
    requires WellFormed(nodes, rank, bound) && x in nodes && StampsUpTo(nodes, t) && s <= t
    ensures StampsUpTo(Propagated(nodes, rank, bound, x, s), t)
  {
    PropagatedStamps(nodes, rank, bound, x, s);
    var r := Propagated(nodes, rank, bound, x, s);
    forall y | y in r
      ensures StampOk(r, t, y)
    {
      assert SameLinks(nodes[y], r[y]) && StampOk(nodes, t, y);
    }
  }

  /** Propagating `s` from `x` restores coverage everywhere when only `x` lagged, and by at most `s`. */
  lemma {:induction false} PropagatedCovers<T>(nodes: Arena<T>, rank: map<NodeId, nat>, bound: nat, x: NodeId, s: int)
    requires WellFormed(nodes, rank, bound) && x in nodes && CoveredExcept(nodes, x, s)
    ensures Covered(Propagated(nodes, rank, bound, x, s))
    decreases rank[x]
  {
    assert NodeOk(nodes, rank, bound, x);
    if nodes[x].childMod < s {
      var raised := nodes[x := nodes[x].(childMod := s)];
      ShapeWellFormed(nodes, raised, rank, bound);
      forall id | id in raised && id != x && (nodes[x].parent.None? || id != nodes[x].parent.value)
        ensures Covers(raised, id)
      {
        assert Covers(nodes, id);
        assert NodeOk(nodes, rank, bound, id);
      }
      assert Covers(raised, x);
      if nodes[x].parent.Some? {
        var p := nodes[x].parent.value;
        assert Covers(nodes, p);
        assert NodeOk(nodes, rank, bound, p);
        PropagatedCovers(raised, rank, bound, p, s);
      } else {
        assert Covered(raised);
      }
    } else {
      assert Covers(nodes, x);
    }
  }

  /**
   * A fresh node with no child set, below a node of the arena or below none,
   * keeps the arena well-formed and covered, ranked just below its parent.
   */
  lemma NewNodeWellFormed<T>(nodes: Arena<T>, rank: map<NodeId, nat>, bound: nat, id: NodeId, node: Node<T>)
    requires WellFormed(nodes, rank, bound) && Covered(nodes) && id !in nodes
    requires node.children == None && (node.parent.Some? ==> node.parent.value in nodes)
    ensures node.parent.Some? ==> node.parent.value in rank
    ensures var rank' := rank[id := if node.parent.Some? then rank[node.parent.value] + 1 else 0];
      WellFormed(nodes[id := node], rank', bound + 1) && Covered(nodes[id := node])
  {
    if node.parent.Some? {
      assert NodeOk(nodes, rank, bound, node.parent.value);
    }
    var r := nodes[id := node];
    var rank' := rank[id := if node.parent.Some? then rank[node.parent.value] + 1 else 0];
    forall x | x in r
      ensures NodeOk(r, rank', bound + 1, x) && Covers(r, x)
    {
      if x != id {
        assert NodeOk(nodes, rank, bound, x);
        assert Covers(nodes, x);
        forall i | 0 <= i < |Kids(r[x])|
          ensures Kids(r[x])[i] != id
        {
          assert Kids(r[x])[i] in nodes;
        }
      }
    }
  }

  /** The links `addChild(c)` on `p` sets: `c`'s parent becomes `p`, and `c` joins `p`'s child set. */
  function Attach<T>(nodes: Arena<T>, p: NodeId, c: NodeId): (r: Arena<T>)
    requires p in nodes && c in nodes
  {
    var linked := nodes[c := nodes[c].(parent := Some(p))];
    linked[p := linked[p].(children := Some(AddToSet(Kids(linked[p]), c)))]
  }

  /** Ranks after attaching `c`: everything whose line runs through `c` moves up by `shift`. */
  ghost function Rerank<T>(nodes: Arena<T>, rank: map<NodeId, nat>, bound: nat, c: NodeId, shift: nat): (r: map<NodeId, nat>)
    requires WellFormed(nodes, rank, bound)
  {
    map m | m in nodes :: if c in Line(nodes, rank, bound, m) then rank[m] + shift else rank[m]
  }

  /**
   * Attaching a node that has no parent (or already has `p`) below a node
   * that is not in its own subtree keeps the arena well-formed.
   */
  lemma AttachWellFormed<T>(nodes: Arena<T>, rank: map<NodeId, nat>, bound: nat, p: NodeId, c: NodeId)
    requires WellFormed(nodes, rank, bound) && p in nodes && c in nodes
    requires nodes[c].parent.None? || nodes[c].parent == Some(p)
    requires c !in Line(nodes, rank, bound, p)
    ensures WellFormed(Attach(nodes, p, c), Rerank(nodes, rank, bound, c, rank[p] + 1), bound + rank[p] + 1)
  {
    var r := Attach(nodes, p, c);
    var rank' := Rerank(nodes, rank, bound, c, rank[p] + 1);
    forall id | id in r
      ensures NodeOk(r, rank', bound + rank[p] + 1, id)
    {
      RerankParent(nodes, rank, bound, p, c, id);
      AttachKids(nodes, rank, bound, p, c, id);
    }
  }

  /** After attaching, each node's children still point back to it, without duplicates. */
  lemma AttachKids<T>(nodes: Arena<T>, rank: map<NodeId, nat>, bound: nat, p: NodeId, c: NodeId, id: NodeId)
    requires WellFormed(nodes, rank, bound) && p in nodes && c in nodes && id in nodes
    requires nodes[c].parent.None? || nodes[c].parent == Some(p)
    ensures var r := Attach(nodes, p, c);
      (forall i :: 0 <= i < |Kids(r[id])| ==> Kids(r[id])[i] in r && r[Kids(r[id])[i]].parent == Some(id))
      && NoDup(Kids(r[id]))
  {
    var r := Attach(nodes, p, c);
    assert NodeOk(nodes, rank, bound, id);
    if id == p {
      AttachParentKids(nodes, rank, bound, p, c);
    } else {
      assert Kids(r[id]) == Kids(nodes[id]);
      forall i | 0 <= i < |Kids(r[id])|
        ensures Kids(r[id])[i] in r && r[Kids(r[id])[i]].parent == Some(id)
      {
        assert Kids(r[id])[i] != c;
      }
    }
  }

  /** After attaching, `p`'s children, `c` among them, point back to `p`, without duplicates. */
  lemma AttachParentKids<T>(nodes: Arena<T>, rank: map<NodeId, nat>, bound: nat, p: NodeId, c: NodeId)
    requires WellFormed(nodes, rank, bound) && p in nodes && c in nodes
    ensures var r := Attach(nodes, p, c);
      (forall i :: 0 <= i < |Kids(r[p])| ==> Kids(r[p])[i] in r && r[Kids(r[p])[i]].parent == Some(p))
      && NoDup(Kids(r[p]))
  {
    var r := Attach(nodes, p, c);
    assert NodeOk(nodes, rank, bound, p);
    var ks := Kids(nodes[p]);
    assert Kids(r[p]) == AddToSet(ks, c);
    AddToSetIsSet(ks, c);
    forall i | 0 <= i < |Kids(r[p])|
      ensures Kids(r[p])[i] in r && r[Kids(r[p])[i]].parent == Some(p)
    {
      if i < |ks| {
        assert Kids(r[p])[i] == ks[i];
      }
    }
  }

  /** After attaching, each node's parent still ranks below it. */
  lemma RerankParent<T>(nodes: Arena<T>, rank: map<NodeId, nat>, bound: nat, p: NodeId, c: NodeId, id: NodeId)
    requires WellFormed(nodes, rank, bound) && p in nodes && c in nodes && id in nodes
    requires c !in Line(nodes, rank, bound, p)
    ensures var r := Attach(nodes, p, c);
      var rank' := Rerank(nodes, rank, bound, c, rank[p] + 1);
      rank'[id] < bound + rank[p] + 1
      && (r[id].parent.Some? ==> r[id].parent.value in r && rank'[r[id].parent.value] < rank'[id])
  {
    assert NodeOk(nodes, rank, bound, id);
    if id != c && nodes[id].parent.Some? {
      var q := nodes[id].parent.value;
      assert Line(nodes, rank, bound, id) == [id] + Line(nodes, rank, bound, q);
    }
  }

  /** Before the climb of `addChild`, only `p` may lag, and only behind the new child. */
  lemma AttachCovers<T>(nodes: Arena<T>, rank: map<NodeId, nat>, bound: nat, p: NodeId, c: NodeId)
    requires WellFormed(nodes, rank, bound) && Covered(nodes) && p in nodes && c in nodes && p != c
    requires nodes[c].parent.None? || nodes[c].parent == Some(p)
    ensures CoveredExcept(Attach(nodes, p, c), p, Modification(nodes[c]))
  {
    var r := Attach(nodes, p, c);
    assert NodeOk(nodes, rank, bound, c);
    forall id | id in r && id != p
      ensures Covers(r, id)
    {
      assert Covers(nodes, id);
      assert NodeOk(nodes, rank, bound, id);
    }
    assert Covers(nodes, p);
  }

  /** The arena after `addChild(c)` on `p`: attach, then propagate `c`'s modification from `p`. */
  ghost function AddedChild<T>(nodes: Arena<T>, rank: map<NodeId, nat>, bound: nat, p: NodeId, c: NodeId): (r: Arena<T>)
    requires WellFormed(nodes, rank, bound) && p in nodes && c in nodes
    requires nodes[c].parent.None? || nodes[c].parent == Some(p)
    requires c !in Line(nodes, rank, bound, p)
  {
    AttachWellFormed(nodes, rank, bound, p, c);
    Propagated(Attach(nodes, p, c), Rerank(nodes, rank, bound, c, rank[p] + 1), bound + rank[p] + 1, p, Modification(nodes[c]))
  }

  /** After `addChild(c)` on `p` the arena is well-formed under the new ranks, and coverage is restored everywhere. */
  lemma AddedChildCovered<T>(nodes: Arena<T>, rank: map<NodeId, nat>, bound: nat, p: NodeId, c: NodeId)
    requires WellFormed(nodes, rank, bound) && Covered(nodes) && p in nodes && c in nodes
    requires nodes[c].parent.None? || nodes[c].parent == Some(p)
    requires c !in Line(nodes, rank, bound, p)
    ensures WellFormed(Attach(nodes, p, c), Rerank(nodes, rank, bound, c, rank[p] + 1), bound + rank[p] + 1)
    ensures var r := AddedChild(nodes, rank, bound, p, c);
      && WellFormed(r, Rerank(nodes, rank, bound, c, rank[p] + 1), bound + rank[p] + 1) && Covered(r)
      && SameShape(Attach(nodes, p, c), r)
  {
    var rank' := Rerank(nodes, rank, bound, c, rank[p] + 1);
    var bound' := bound + rank[p] + 1;
    var a := Attach(nodes, p, c);
    assert NodeOk(nodes, rank, bound, c);
    AttachWellFormed(nodes, rank, bound, p, c);
    AttachCovers(nodes, rank, bound, p, c);
    PropagatedStamps(a, rank', bound', p, Modification(nodes[c]));
    PropagatedCovers(a, rank', bound', p, Modification(nodes[c]));
  }

  /** The links and the stamp at `p` that `addChild(c)` on `p` leaves. */
  lemma AddedChildLinks<T>(nodes: Arena<T>, rank: map<NodeId, nat>, bound: nat, p: NodeId, c: NodeId)
    requires WellFormed(nodes, rank, bound) && Covered(nodes) && p in nodes && c in nodes
    requires nodes[c].parent.None? || nodes[c].parent == Some(p)
    requires c !in Line(nodes, rank, bound, p)
    ensures var r := AddedChild(nodes, rank, bound, p, c);
      && r[c].parent == Some(p)
      && Kids(r[p]) == AddToSet(Kids(nodes[p]), c) && NoDup(Kids(r[p]))
      && r[p].childMod >= Modification(r[c])
  {
    AddedChildCovered(nodes, rank, bound, p, c);
    var a := Attach(nodes, p, c);
    var r := AddedChild(nodes, rank, bound, p, c);
    assert SameLinks(a[p], r[p]) && SameLinks(a[c], r[c]);
    var ks := Kids(nodes[p]);
    assert Kids(r[p]) == AddToSet(ks, c);
    assert NodeOk(nodes, rank, bound, p);
    AddToSetIsSet(ks, c);
    var k :| 0 <= k < |Kids(r[p])| && Kids(r[p])[k] == c;
    assert Covers(r, p);
  }

  /**
   * What `addChild(c)` on `p` leaves: `c` hangs below `p`, `p`'s child set
   * gained `c` once, and `p` covers `c`'s modification, with coverage
   * restored everywhere. When `p` and its ancestors were listed, `c` is
   * listed too and every one of its ancestors covers its modification.
   */
  lemma AddChildEffect<T>(nodes: Arena<T>, rank: map<NodeId, nat>, bound: nat, p: NodeId, c: NodeId)
    requires WellFormed(nodes, rank, bound) && Covered(nodes) && p in nodes && c in nodes
    requires nodes[c].parent.None? || nodes[c].parent == Some(p)
    requires c !in Line(nodes, rank, bound, p)
    ensures var r := AddedChild(nodes, rank, bound, p, c);
      WellFormed(r, Rerank(nodes, rank, bound, c, rank[p] + 1), bound + rank[p] + 1) && Covered(r)
    ensures var r := AddedChild(nodes, rank, bound, p, c);
      && r[c].parent == Some(p)
      && Kids(r[p]) == AddToSet(Kids(nodes[p]), c) && NoDup(Kids(r[p]))
      && r[p].childMod >= Modification(r[c])
    ensures Listed(nodes, rank, bound, p) ==>
      var r := AddedChild(nodes, rank, bound, p, c);
      var rank' := Rerank(nodes, rank, bound, c, rank[p] + 1);
      && Listed(r, rank', bound + rank[p] + 1, c)
      && var l := Line(r, rank', bound + rank[p] + 1, c);
      forall j :: 1 <= j < |l| ==> r[l[j]].childMod >= Modification(r[c])
  {
    AddedChildCovered(nodes, rank, bound, p, c);
    AddedChildLinks(nodes, rank, bound, p, c);
    if Listed(nodes, rank, bound, p) {
      AddedChildListed(nodes, rank, bound, p, c);
    }
  }

  /**
   * What `removeChild(c)` on `p` leaves when `c` was listed: `c` is out of
   * `p`'s child set and has no parent, and `p` carries the fresh stamp `s`,
   * with coverage kept everywhere.
   */
  lemma RemoveChildEffect<T>(nodes: Arena<T>, rank: map<NodeId, nat>, bound: nat, p: NodeId, c: NodeId, s: int)
    requires WellFormed(nodes, rank, bound) && Covered(nodes) && p in nodes && c in Kids(nodes[p])
    ensures c in nodes
    ensures var d := Detach(nodes, p, c);
      && WellFormed(d, rank, bound)
      && var r := Propagated(d, rank, bound, p, s);
      && WellFormed(r, rank, bound) && Covered(r) && SameShape(d, r)
      && Kids(r[p]) == Remove(Kids(nodes[p]), c) && c !in Kids(r[p])
      && r[c].parent == None
      && r[p].childMod >= s
    ensures StampsUpTo(nodes, s - 1) ==>
      var r := Propagated(Detach(nodes, p, c), rank, bound, p, s);
      && StampsUpTo(r, s)
      && var l := Line(r, rank, bound, p);
      forall j :: 0 <= j < |l| ==> l[j] in nodes && r[l[j]].childMod == s && Modification(nodes[l[j]]) < Modification(r[l[j]]) == s
  {
    if StampsUpTo(nodes, s - 1) {
      RemovalRaisesLine(nodes, rank, bound, p, c, s);
    }
    assert NodeOk(nodes, rank, bound, p);
    DetachWellFormed(nodes, rank, bound, p, c);
    RemoveFromSet(Kids(nodes[p]), c);
    var d := Detach(nodes, p, c);
    assert Covers(d, p);
    PropagatedStamps(d, rank, bound, p, s);
    PropagatedCovers(d, rank, bound, p, s);
    var r := Propagated(d, rank, bound, p, s);
    assert SameLinks(d[p], r[p]) && SameLinks(d[c], r[c]);
  }

  /**
   * `removeChild(c)` on `p` changes only `c`'s parent link and `p`'s child
   * set, keeps `c`'s own child set, and only raises stamps.
   */
  lemma RemoveChildFrame<T>(nodes: Arena<T>, rank: map<NodeId, nat>, bound: nat, p: NodeId, c: NodeId, s: int)
    requires WellFormed(nodes, rank, bound) && Covered(nodes) && p in nodes && c in Kids(nodes[p])
    ensures c in nodes && WellFormed(Detach(nodes, p, c), rank, bound)
    ensures var r := Propagated(Detach(nodes, p, c), rank, bound, p, s);
      r[c].children == nodes[c].children && Evolved(nodes, r, {c}, {p})
  {
    assert NodeOk(nodes, rank, bound, p);
    DetachWellFormed(nodes, rank, bound, p, c);
    var d := Detach(nodes, p, c);
    PropagatedStamps(d, rank, bound, p, s);
    var r := Propagated(d, rank, bound, p, s);
    forall m | m in nodes
      ensures Kept(nodes, r, {c}, {p}, m)
    {
      assert SameLinks(d[m], r[m]);
    }
  }

  /** Every node of `x`'s line, `x` and each ancestor up to the root, has a child stamp of at least `s`. */
  ghost predicate LineStamped<T>(nodes: Arena<T>, rank: map<NodeId, nat>, bound: nat, x: NodeId, s: int)
    requires WellFormed(nodes, rank, bound) && x in nodes
  {
    forall j :: 0 <= j < |Line(nodes, rank, bound, x)| ==> nodes[Line(nodes, rank, bound, x)[j]].childMod >= s
  }

  /**
   * When every stamp is below the fresh stamp `s`, `removeChild(c)` on `p`
   * raises the child stamp of every node of `p`'s line, up to the root, to
   * `s`: each one's `getModification` rises strictly, to `s`.
   */
  lemma RemovalRaisesLine<T>(nodes: Arena<T>, rank: map<NodeId, nat>, bound: nat, p: NodeId, c: NodeId, s: int)
    requires WellFormed(nodes, rank, bound) && Covered(nodes) && p in nodes && c in Kids(nodes[p])
    requires StampsUpTo(nodes, s - 1)
    ensures c in nodes && WellFormed(Detach(nodes, p, c), rank, bound)
    ensures var r := Propagated(Detach(nodes, p, c), rank, bound, p, s);
      && WellFormed(r, rank, bound) && StampsUpTo(r, s)
      && var l := Line(r, rank, bound, p);
      forall j :: 0 <= j < |l| ==>
        l[j] in nodes && r[l[j]].childMod == s && Modification(nodes[l[j]]) < Modification(r[l[j]]) == s
  {
    assert NodeOk(nodes, rank, bound, p);
    DetachWellFormed(nodes, rank, bound, p, c);
    var d := Detach(nodes, p, c);
    DetachUpTo(nodes, p, c, s - 1);
    assert StampsUpTo(d, s) by {
      forall y | y in d
        ensures StampOk(d, s, y)
      {
        assert StampOk(d, s - 1, y);
      }
    }
    PropagatedUpTo(d, rank, bound, p, s, s);
    PropagatedStamps(d, rank, bound, p, s);
    var r := Propagated(d, rank, bound, p, s);
    ShapeLine(d, r, rank, bound, p);
    var l := Line(d, rank, bound, p);
    forall j | 0 <= j < |l|
      ensures l[j] in nodes && r[l[j]].childMod == s && Modification(nodes[l[j]]) < Modification(r[l[j]]) == s
    {
      forall i | 0 <= i <= j
        ensures d[l[i]].childMod < s
      {
        assert StampOk(d, s - 1, l[i]);
      }
      PropagatedClimbs(d, rank, bound, p, s, j);
      assert SameLinks(d[l[j]], r[l[j]]);
      assert StampOk(d, s - 1, l[j]) && StampOk(nodes, s - 1, l[j]);
    }
  }

  /** The links `removeChild(c)` on `p` sets when `c` is one of `p`'s children. */
  function Detach<T>(nodes: Arena<T>, p: NodeId, c: NodeId): (r: Arena<T>)
    requires p in nodes && c in nodes
  {
    var unlisted := nodes[p := nodes[p].(children := Some(Remove(Kids(nodes[p]), c)))];
    unlisted[c := unlisted[c].(parent := None)]
  }

  /** Detaching a child keeps the arena well-formed under the same ranks, and keeps coverage. */
  lemma DetachWellFormed<T>(nodes: Arena<T>, rank: map<NodeId, nat>, bound: nat, p: NodeId, c: NodeId)
    requires WellFormed(nodes, rank, bound) && Covered(nodes) && p in nodes && c in Kids(nodes[p])
    ensures c in nodes
    ensures WellFormed(Detach(nodes, p, c), rank, bound) && Covered(Detach(nodes, p, c))
  {
    assert NodeOk(nodes, rank, bound, p);
    var r := Detach(nodes, p, c);
    RemoveFromSet(Kids(nodes[p]), c);
    forall id | id in r
      ensures NodeOk(r, rank, bound, id) && Covers(r, id)
    {
      assert NodeOk(nodes, rank, bound, id);
      assert Covers(nodes, id);
      if id == p {
        forall i | 0 <= i < |Kids(r[p])|
          ensures Kids(r[p])[i] in r && r[Kids(r[p])[i]].parent == Some(p)
            && r[p].childMod >= Modification(r[Kids(r[p])[i]])
        {
          assert Kids(r[p])[i] in Kids(nodes[p]);
        }
      } else {
        forall i | 0 <= i < |Kids(r[id])|
          ensures Kids(r[id])[i] in r && r[Kids(r[id])[i]].parent == Some(id)
        {
          assert Kids(r[id])[i] != c;
        }
      }
    }
  }

  /** `x` and each of its ancestors is in its parent's child set. */
  ghost predicate Listed<T>(nodes: Arena<T>, rank: map<NodeId, nat>, bound: nat, x: NodeId)
    requires WellFormed(nodes, rank, bound) && x in nodes
    decreases rank[x]
  {
    assert NodeOk(nodes, rank, bound, x);
    nodes[x].parent.Some? ==>
      x in Kids(nodes[nodes[x].parent.value]) && Listed(nodes, rank, bound, nodes[x].parent.value)
  }

  /**
   * When stamps are covered, every ancestor of a listed node carries a child
   * stamp at least that node's modification.
   */
  lemma {:induction false} AncestorsCover<T>(nodes: Arena<T>, rank: map<NodeId, nat>, bound: nat, x: NodeId)
    requires WellFormed(nodes, rank, bound) && Covered(nodes) && x in nodes && Listed(nodes, rank, bound, x)
    ensures var l := Line(nodes, rank, bound, x);
      forall j :: 1 <= j < |l| ==> nodes[l[j]].childMod >= Modification(nodes[x])
    decreases rank[x]
  {
    assert NodeOk(nodes, rank, bound, x);
    if nodes[x].parent.Some? {
      var p := nodes[x].parent.value;
      assert Covers(nodes, p);
      var k :| 0 <= k < |Kids(nodes[p])| && Kids(nodes[p])[k] == x;
      AncestorsCover(nodes, rank, bound, p);
      var l := Line(nodes, rank, bound, x);
      assert l == [x] + Line(nodes, rank, bound, p);
    }
  }

  /** `b` keeps `y`'s parent link and at least its children from `a`. */
  ghost predicate LinksGrow<T>(a: Arena<T>, b: Arena<T>, y: NodeId)
  {
    y in a && y in b && b[y].parent == a[y].parent && forall z :: z in Kids(a[y]) ==> z in Kids(b[y])
  }

  /**
   * Listing survives a change that keeps the parent link of every node of
   * `x`'s line and only adds to their child sets.
   */
  lemma {:induction false} ListedKept<T>(a: Arena<T>, ra: map<NodeId, nat>, ba: nat,
                                         b: Arena<T>, rb: map<NodeId, nat>, bb: nat, x: NodeId)
    requires WellFormed(a, ra, ba) && WellFormed(b, rb, bb) && x in a && Listed(a, ra, ba, x)
    requires forall i :: 0 <= i < |Line(a, ra, ba, x)| ==> LinksGrow(a, b, Line(a, ra, ba, x)[i])
    ensures x in b && Listed(b, rb, bb, x)
    decreases ra[x]
  {
    assert NodeOk(a, ra, ba, x);
    var l := Line(a, ra, ba, x);
    assert LinksGrow(a, b, l[0]);
    if a[x].parent.Some? {
      var q := a[x].parent.value;
      var lq := Line(a, ra, ba, q);
      assert l == [x] + lq;
      forall i | 0 <= i < |lq|
        ensures LinksGrow(a, b, lq[i])
      {
        assert LinksGrow(a, b, l[i + 1]);
      }
      ListedKept(a, ra, ba, b, rb, bb, q);
      assert LinksGrow(a, b, l[1]) && x in Kids(a[q]);
    }
  }

  /**
   * An arena shaped like `Attach(nodes, p, c)` keeps the parent links of
   * `p`'s line and only adds to child sets there.
   */
  lemma AttachLinksGrow<T>(nodes: Arena<T>, r: Arena<T>, rank: map<NodeId, nat>, bound: nat, p: NodeId, c: NodeId)
    requires WellFormed(nodes, rank, bound) && p in nodes && c in nodes
    requires c !in Line(nodes, rank, bound, p)
    requires SameShape(Attach(nodes, p, c), r)
    ensures forall i :: 0 <= i < |Line(nodes, rank, bound, p)| ==> LinksGrow(nodes, r, Line(nodes, rank, bound, p)[i])
  {
    var l := Line(nodes, rank, bound, p);
    AttachParentGrows(nodes, r, rank, bound, p, c);
    forall i | 1 <= i < |l|
      ensures LinksGrow(nodes, r, l[i])
    {
      AttachAncestorGrows(nodes, r, rank, bound, p, c, i);
    }
  }

  /** The parent keeps its own parent link and gains `c` in its child set. */
  lemma AttachParentGrows<T>(nodes: Arena<T>, r: Arena<T>, rank: map<NodeId, nat>, bound: nat, p: NodeId, c: NodeId)
    requires WellFormed(nodes, rank, bound) && p in nodes && c in nodes
    requires c != p
    requires SameShape(Attach(nodes, p, c), r)
    ensures LinksGrow(nodes, r, p)
  {
    assert NodeOk(nodes, rank, bound, p);
    AddToSetIsSet(Kids(nodes[p]), c);
    assert SameLinks(Attach(nodes, p, c)[p], r[p]);
  }

  /** An ancestor above the parent is left as it was by the attachment. */
  lemma AttachAncestorGrows<T>(nodes: Arena<T>, r: Arena<T>, rank: map<NodeId, nat>, bound: nat, p: NodeId, c: NodeId, i: nat)
    requires WellFormed(nodes, rank, bound) && p in nodes && c in nodes
    requires c !in Line(nodes, rank, bound, p)
    requires SameShape(Attach(nodes, p, c), r)
    requires 1 <= i < |Line(nodes, rank, bound, p)|
    ensures LinksGrow(nodes, r, Line(nodes, rank, bound, p)[i])
  {
    var l := Line(nodes, rank, bound, p);
    var y := l[i];
    assert NodeOk(nodes, rank, bound, p);
    var q := nodes[p].parent.value;
    assert l[i] == Line(nodes, rank, bound, q)[i - 1];
    assert rank[y] < rank[p];
    assert y != c;
    assert Attach(nodes, p, c)[y] == nodes[y] && SameLinks(Attach(nodes, p, c)[y], r[y]);
  }

  /**
   * When `p` and its ancestors are listed, `addChild(c)` leaves `c` listed
   * as well, and then every ancestor of `c` carries a child stamp at least
   * `c`'s modification.
   */
  lemma AddedChildListed<T>(nodes: Arena<T>, rank: map<NodeId, nat>, bound: nat, p: NodeId, c: NodeId)
    requires WellFormed(nodes, rank, bound) && Covered(nodes) && p in nodes && c in nodes
    requires nodes[c].parent.None? || nodes[c].parent == Some(p)
    requires c !in Line(nodes, rank, bound, p)
    requires Listed(nodes, rank, bound, p)
    ensures var r := AddedChild(nodes, rank, bound, p, c);
      var rank' := Rerank(nodes, rank, bound, c, rank[p] + 1);
      && WellFormed(r, rank', bound + rank[p] + 1) && Listed(r, rank', bound + rank[p] + 1, c)
      && var l := Line(r, rank', bound + rank[p] + 1, c);
      forall j :: 1 <= j < |l| ==> r[l[j]].childMod >= Modification(r[c])
  {
    AddedChildCovered(nodes, rank, bound, p, c);
    AttachStaysListed(nodes, AddedChild(nodes, rank, bound, p, c), rank, bound,
                      Rerank(nodes, rank, bound, c, rank[p] + 1), bound + rank[p] + 1, p, c);
    AncestorsCover(AddedChild(nodes, rank, bound, p, c), Rerank(nodes, rank, bound, c, rank[p] + 1), bound + rank[p] + 1, c);
  }

  /** An arena shaped like `Attach(nodes, p, c)` lists `c` when `nodes` listed `p`. */
  lemma AttachStaysListed<T>(nodes: Arena<T>, r: Arena<T>, rank: map<NodeId, nat>, bound: nat,
                             rank': map<NodeId, nat>, bound': nat, p: NodeId, c: NodeId)
    requires WellFormed(nodes, rank, bound) && WellFormed(r, rank', bound') && p in nodes && c in nodes
    requires c !in Line(nodes, rank, bound, p) && Listed(nodes, rank, bound, p)
    requires SameShape(Attach(nodes, p, c), r)
    ensures c in r && Listed(r, rank', bound', c)
  {
    AttachLinksGrow(nodes, r, rank, bound, p, c);
    ListedKept(nodes, rank, bound, r, rank', bound', p);
    var a := Attach(nodes, p, c);
    assert SameLinks(a[c], r[c]) && SameLinks(a[p], r[p]);
    AddToSetIsSet(Kids(nodes[p]), c) by {
      assert NodeOk(nodes, rank, bound, p);
    }
  }

  /** The node and everything reachable from it through child sets. */
  ghost function Subtree<T>(nodes: Arena<T>, rank: map<NodeId, nat>, bound: nat, n: NodeId): (sub: set<NodeId>)
    requires WellFormed(nodes, rank, bound) && n in nodes
    ensures n in sub && sub <= nodes.Keys
    decreases bound - rank[n], 1
  {
    assert NodeOk(nodes, rank, bound, n);
    {n} + SubtreesFrom(nodes, rank, bound, n, 0)
  }

  /** The subtrees of `n`'s children from index `i` on. */
  ghost function SubtreesFrom<T>(nodes: Arena<T>, rank: map<NodeId, nat>, bound: nat, n: NodeId, i: nat): (subs: set<NodeId>)
    requires WellFormed(nodes, rank, bound) && n in nodes && i <= |Kids(nodes[n])|
    ensures subs <= nodes.Keys
    decreases bound - rank[n], 0, |Kids(nodes[n])| - i
  {
    assert NodeOk(nodes, rank, bound, n);
    if i == |Kids(nodes[n])| then {}
    else
      KidRank(nodes, rank, bound, n, i);
      Subtree(nodes, rank, bound, Kids(nodes[n])[i]) + SubtreesFrom(nodes, rank, bound, n, i + 1)
  }

  /** What the action sees of a walk: it is told before a subtree, and runs on each node. */
  datatype Event<T> = Before(obj: T) | Ran(obj: T, outcome: Outcome)

  /** How the action ended on one object: normally, by failing (logged), or by cancellation (re-raised). */
  datatype Outcome = Completed | Failed | Cancelled

  /** The events of a walk, and whether a cancellation ended it. */
  datatype Run<T> = Run(events: seq<Event<T>>, cancelled: bool)

  /**
   * `execute` on `n`: `beforeTreeExecution` on its object, the children from
   * last to first, then the action on its object. A cancellation anywhere
   * ends the walk at once.
   */
  ghost function Walk<T>(nodes: Arena<T>, rank: map<NodeId, nat>, bound: nat, n: NodeId, run: T -> Outcome): (w: Run<T>)
    requires WellFormed(nodes, rank, bound) && n in nodes
    decreases bound - rank[n], 1
  {
    assert NodeOk(nodes, rank, bound, n);
    var o := nodes[n].obj;
    var inner := WalkFrom(nodes, rank, bound, n, 0, run);
    if inner.cancelled then Run([Before(o)] + inner.events, true)
    else Run([Before(o)] + inner.events + [Ran(o, run(o))], run(o) == Cancelled)
  }

  /** The walks of `n`'s children from the last one down to index `i`. */
  ghost function WalkFrom<T>(nodes: Arena<T>, rank: map<NodeId, nat>, bound: nat, n: NodeId, i: nat, run: T -> Outcome): (w: Run<T>)
    requires WellFormed(nodes, rank, bound) && n in nodes && i <= |Kids(nodes[n])|
    decreases bound - rank[n], 0, |Kids(nodes[n])| - i
  {
    assert NodeOk(nodes, rank, bound, n);
    if i == |Kids(nodes[n])| then Run([], false)
    else
      var later := WalkFrom(nodes, rank, bound, n, i + 1, run);
      if later.cancelled then later
      else
        KidRank(nodes, rank, bound, n, i);
        var w := Walk(nodes, rank, bound, Kids(nodes[n])[i], run);
        Run(later.events + w.events, w.cancelled)
  }

  /** The parent of a node on a line is on that line too. */
  lemma {:induction false} LineUpward<T>(nodes: Arena<T>, rank: map<NodeId, nat>, bound: nat, m: NodeId, k: NodeId)
    requires WellFormed(nodes, rank, bound) && m in nodes && k in nodes && k in Line(nodes, rank, bound, m)
    ensures nodes[k].parent.Some? ==> nodes[k].parent.value in Line(nodes, rank, bound, m)
    decreases rank[m]
  {
    assert NodeOk(nodes, rank, bound, m);
    if k != m {
      LineUpward(nodes, rank, bound, nodes[m].parent.value, k);
    }
  }

  /** A line holds at most one child of any node. */
  lemma {:induction false} LineParentUnique<T>(nodes: Arena<T>, rank: map<NodeId, nat>, bound: nat, m: NodeId, a: NodeId, b: NodeId)
    requires WellFormed(nodes, rank, bound) && m in nodes && a in nodes && b in nodes
    requires a in Line(nodes, rank, bound, m) && b in Line(nodes, rank, bound, m)
    requires nodes[a].parent.Some? && nodes[a].parent == nodes[b].parent
    ensures a == b
    decreases rank[m]
  {
    assert NodeOk(nodes, rank, bound, m);
    assert NodeOk(nodes, rank, bound, a);
    assert NodeOk(nodes, rank, bound, b);
    if a != m && b != m {
      LineParentUnique(nodes, rank, bound, nodes[m].parent.value, a, b);
    }
  }

  /** A member of the children's subtrees from `i` on lies in the subtree of some child at `i` or later. */
  lemma {:induction false} SubtreesFromWitness<T>(nodes: Arena<T>, rank: map<NodeId, nat>, bound: nat, n: NodeId, i: nat, m: NodeId)
    returns (j: nat)
    requires WellFormed(nodes, rank, bound) && n in nodes && i <= |Kids(nodes[n])|
    requires m in SubtreesFrom(nodes, rank, bound, n, i)
    ensures i <= j < |Kids(nodes[n])| && Kids(nodes[n])[j] in nodes
    ensures m in Subtree(nodes, rank, bound, Kids(nodes[n])[j])
    decreases |Kids(nodes[n])| - i
  {
    KidRank(nodes, rank, bound, n, i);
    if m in Subtree(nodes, rank, bound, Kids(nodes[n])[i]) {
      j := i;
    } else {
      j := SubtreesFromWitness(nodes, rank, bound, n, i + 1, m);
    }
  }

  /**
   * Downward reach through child sets agrees with upward reach through
   * parent links: `n` is on the line of every node of its subtree, and ranks
   * grow strictly downward.
   */
  lemma {:induction false} SubtreeLine<T>(nodes: Arena<T>, rank: map<NodeId, nat>, bound: nat, n: NodeId, m: NodeId)
    requires WellFormed(nodes, rank, bound) && n in nodes && m in Subtree(nodes, rank, bound, n)
    ensures m in nodes && n in Line(nodes, rank, bound, m)
    ensures m == n || rank[n] < rank[m]
    decreases bound - rank[n]
  {
    if m != n {
      var j := SubtreesFromWitness(nodes, rank, bound, n, 0, m);
      var k := Kids(nodes[n])[j];
      KidRank(nodes, rank, bound, n, j);
      SubtreeLine(nodes, rank, bound, k, m);
      assert NodeOk(nodes, rank, bound, n);
      LineUpward(nodes, rank, bound, m, k);
    }
  }

  /** The subtrees of two children of the same node share a node only if they are the same child. */
  lemma SiblingSubtreesDisjoint<T>(nodes: Arena<T>, rank: map<NodeId, nat>, bound: nat, n: NodeId, i: nat, j: nat, m: NodeId)
    requires WellFormed(nodes, rank, bound) && n in nodes && i < |Kids(nodes[n])| && j < |Kids(nodes[n])|
    requires Kids(nodes[n])[i] in nodes && Kids(nodes[n])[j] in nodes
    requires m in Subtree(nodes, rank, bound, Kids(nodes[n])[i]) && m in Subtree(nodes, rank, bound, Kids(nodes[n])[j])
    ensures i == j
  {
    assert NodeOk(nodes, rank, bound, n);
    SubtreeLine(nodes, rank, bound, Kids(nodes[n])[i], m);
    SubtreeLine(nodes, rank, bound, Kids(nodes[n])[j], m);
    LineParentUnique(nodes, rank, bound, m, Kids(nodes[n])[i], Kids(nodes[n])[j]);
  }

  /**
   * The subtree and the walk of `n` depend only on the objects and child sets
   * of the subtree's own nodes.
   */
  lemma {:induction false} WalkFrame<T>(a: Arena<T>, b: Arena<T>, rank: map<NodeId, nat>, bound: nat, n: NodeId, run: T -> Outcome)
    requires WellFormed(a, rank, bound) && WellFormed(b, rank, bound) && n in a
    requires forall m :: m in Subtree(a, rank, bound, n) ==> m in b && b[m].obj == a[m].obj && b[m].children == a[m].children
    ensures n in b
    ensures Subtree(b, rank, bound, n) == Subtree(a, rank, bound, n)
    ensures Walk(b, rank, bound, n, run) == Walk(a, rank, bound, n, run)
    decreases bound - rank[n], 1
  {
    assert n in Subtree(a, rank, bound, n);
    WalkFromFrame(a, b, rank, bound, n, 0, run);
  }

  lemma {:induction false} WalkFromFrame<T>(a: Arena<T>, b: Arena<T>, rank: map<NodeId, nat>, bound: nat, n: NodeId, i: nat,
                                            run: T -> Outcome)
    requires WellFormed(a, rank, bound) && WellFormed(b, rank, bound) && n in a && n in b
    requires a[n].children == b[n].children && i <= |Kids(a[n])|
    requires forall m :: m in SubtreesFrom(a, rank, bound, n, i) ==> m in b && b[m].obj == a[m].obj && b[m].children == a[m].children
    ensures SubtreesFrom(b, rank, bound, n, i) == SubtreesFrom(a, rank, bound, n, i)
    ensures WalkFrom(b, rank, bound, n, i, run) == WalkFrom(a, rank, bound, n, i, run)
    decreases bound - rank[n], 0, |Kids(a[n])| - i
  {
    if i < |Kids(a[n])| {
      KidRank(a, rank, bound, n, i);
      WalkFrame(a, b, rank, bound, Kids(a[n])[i], run);
      WalkFromFrame(a, b, rank, bound, n, i + 1, run);
    }
  }

  /** Some action in the events was cancelled. */
  ghost predicate Cancels<T>(events: seq<Event<T>>)
  {
    exists i :: 0 <= i < |events| && events[i].Ran? && events[i].outcome == Cancelled
  }

  lemma CancelsConcat<T>(a: seq<Event<T>>, b: seq<Event<T>>)
    ensures Cancels(a + b) <==> Cancels(a) || Cancels(b)
  {
    if Cancels(a + b) {
      var i :| 0 <= i < |a + b| && (a + b)[i].Ran? && (a + b)[i].outcome == Cancelled;
      if i >= |a| {
        assert b[i - |a|] == (a + b)[i];
      }
    }
    if Cancels(a) {
      var i :| 0 <= i < |a| && a[i].Ran? && a[i].outcome == Cancelled;
      assert (a + b)[i] == a[i];
    }
    if Cancels(b) {
      var i :| 0 <= i < |b| && b[i].Ran? && b[i].outcome == Cancelled;
      assert (a + b)[|a| + i] == b[i];
    }
  }

  /** A walk reports a cancellation exactly when the action was cancelled on some node of it. */
  lemma {:induction false} WalkCancels<T>(nodes: Arena<T>, rank: map<NodeId, nat>, bound: nat, n: NodeId, run: T -> Outcome)
    requires WellFormed(nodes, rank, bound) && n in nodes
    ensures var w := Walk(nodes, rank, bound, n, run); w.cancelled <==> Cancels(w.events)
    decreases bound - rank[n], 1
  {
    assert NodeOk(nodes, rank, bound, n);
    var o := nodes[n].obj;
    var inner := WalkFrom(nodes, rank, bound, n, 0, run);
    WalkFromCancels(nodes, rank, bound, n, 0, run);
    CancelsConcat([Before(o)], inner.events);
    CancelsConcat([Before(o)] + inner.events, [Ran(o, run(o))]);
    assert !Cancels([Before(o)]);
    assert [Ran(o, run(o))][0] == Ran(o, run(o));
    assert Cancels([Ran(o, run(o))]) <==> run(o) == Cancelled;
  }

  lemma {:induction false} WalkFromCancels<T>(nodes: Arena<T>, rank: map<NodeId, nat>, bound: nat, n: NodeId, i: nat,
                                              run: T -> Outcome)
    requires WellFormed(nodes, rank, bound) && n in nodes && i <= |Kids(nodes[n])|
    ensures var w := WalkFrom(nodes, rank, bound, n, i, run); w.cancelled <==> Cancels(w.events)
    decreases bound - rank[n], 0, |Kids(nodes[n])| - i
  {
    if i < |Kids(nodes[n])| {
      WalkFromCancels(nodes, rank, bound, n, i + 1, run);
      var later := WalkFrom(nodes, rank, bound, n, i + 1, run);
      if !later.cancelled {
        KidRank(nodes, rank, bound, n, i);
        var w := Walk(nodes, rank, bound, Kids(nodes[n])[i], run);
        WalkCancels(nodes, rank, bound, Kids(nodes[n])[i], run);
        CancelsConcat(later.events, w.events);
      }
    } else {
      assert !Cancels(WalkFrom(nodes, rank, bound, n, i, run).events);
    }
  }

  /**
   * A walk that is not cancelled is told about `n` first, runs the action on
   * `n` last, and runs it on every other node of the subtree in between:
   * every child's action runs before its parent's.
   */
  lemma {:induction false} WalkVisits<T>(nodes: Arena<T>, rank: map<NodeId, nat>, bound: nat, n: NodeId, run: T -> Outcome)
    requires WellFormed(nodes, rank, bound) && n in nodes
    ensures var w := Walk(nodes, rank, bound, n, run);
      var o := nodes[n].obj;
      !w.cancelled ==>
        && 2 <= |w.events| && w.events[0] == Before(o) && w.events[|w.events| - 1] == Ran(o, run(o))
        && forall m :: m in Subtree(nodes, rank, bound, n) && m != n ==>
             Ran(nodes[m].obj, run(nodes[m].obj)) in w.events[1..|w.events| - 1]
    decreases bound - rank[n], 1
  {
    var w := Walk(nodes, rank, bound, n, run);
    var inner := WalkFrom(nodes, rank, bound, n, 0, run);
    if !w.cancelled {
      WalkFromVisits(nodes, rank, bound, n, 0, run);
      assert w.events[1..|w.events| - 1] == inner.events;
    }
  }

  lemma {:induction false} WalkFromVisits<T>(nodes: Arena<T>, rank: map<NodeId, nat>, bound: nat, n: NodeId, i: nat,
                                             run: T -> Outcome)
    requires WellFormed(nodes, rank, bound) && n in nodes && i <= |Kids(nodes[n])|
    ensures var w := WalkFrom(nodes, rank, bound, n, i, run);
      !w.cancelled ==> forall m :: m in SubtreesFrom(nodes, rank, bound, n, i) ==>
        Ran(nodes[m].obj, run(nodes[m].obj)) in w.events
    decreases bound - rank[n], 0, |Kids(nodes[n])| - i
  {
    if i < |Kids(nodes[n])| {
      var later := WalkFrom(nodes, rank, bound, n, i + 1, run);
      if !later.cancelled {
        KidRank(nodes, rank, bound, n, i);
        var k := Kids(nodes[n])[i];
        var w := Walk(nodes, rank, bound, k, run);
        if !w.cancelled {
          WalkFromVisits(nodes, rank, bound, n, i + 1, run);
          WalkRunsAll(nodes, rank, bound, k, run);
        }
      }
    }
  }

  /** An uncancelled walk runs the action on every node of the subtree, `n` included. */
  lemma {:induction false} WalkRunsAll<T>(nodes: Arena<T>, rank: map<NodeId, nat>, bound: nat, n: NodeId, run: T -> Outcome)
    requires WellFormed(nodes, rank, bound) && n in nodes
    ensures var w := Walk(nodes, rank, bound, n, run);
      !w.cancelled ==> forall m :: m in Subtree(nodes, rank, bound, n) ==> Ran(nodes[m].obj, run(nodes[m].obj)) in w.events
    decreases bound - rank[n], 2
  {
    var w := Walk(nodes, rank, bound, n, run);
    if !w.cancelled {
      WalkVisits(nodes, rank, bound, n, run);
      forall m | m in Subtree(nodes, rank, bound, n)
        ensures Ran(nodes[m].obj, run(nodes[m].obj)) in w.events
      {
        if m != n {
          InSlice(w.events, 1, |w.events| - 1, Ran(nodes[m].obj, run(nodes[m].obj)));
        }
      }
    }
  }

  /** The subtrees of the children from `i` on lose the one at `i` when `i` advances, and it overlaps none of the later ones. */
  lemma SubtreesFromStep<T>(nodes: Arena<T>, rank: map<NodeId, nat>, bound: nat, n: NodeId, i: nat)
    requires WellFormed(nodes, rank, bound) && n in nodes && i < |Kids(nodes[n])|
    ensures Kids(nodes[n])[i] in nodes
    ensures SubtreesFrom(nodes, rank, bound, n, i)
      == Subtree(nodes, rank, bound, Kids(nodes[n])[i]) + SubtreesFrom(nodes, rank, bound, n, i + 1)
    ensures Subtree(nodes, rank, bound, Kids(nodes[n])[i]) !! SubtreesFrom(nodes, rank, bound, n, i + 1)
  {
    KidRank(nodes, rank, bound, n, i);
    var k := Kids(nodes[n])[i];
    forall m | m in Subtree(nodes, rank, bound, k) && m in SubtreesFrom(nodes, rank, bound, n, i + 1)
      ensures false
    {
      var j := SubtreesFromWitness(nodes, rank, bound, n, i + 1, m);
      SiblingSubtreesDisjoint(nodes, rank, bound, n, i, j, m);
    }
  }

  /** The subtrees from a later index are among those from an earlier one, and never hold `n` itself. */
  lemma {:induction false} SubtreesFromWithin<T>(nodes: Arena<T>, rank: map<NodeId, nat>, bound: nat, n: NodeId, j: nat, i: nat)
    requires WellFormed(nodes, rank, bound) && n in nodes && j <= i <= |Kids(nodes[n])|
    ensures SubtreesFrom(nodes, rank, bound, n, i) <= SubtreesFrom(nodes, rank, bound, n, j)
    ensures n !in SubtreesFrom(nodes, rank, bound, n, i)
    decreases i - j
  {
    if j < i {
      SubtreesFromStep(nodes, rank, bound, n, j);
      SubtreesFromWithin(nodes, rank, bound, n, j + 1, i);
    }
    if n in SubtreesFrom(nodes, rank, bound, n, i) {
      var k := SubtreesFromWitness(nodes, rank, bound, n, i, n);
      KidRank(nodes, rank, bound, n, k);
      SubtreeLine(nodes, rank, bound, Kids(nodes[n])[k], n);
    }
  }

  /** Once the walk of the later children is cancelled, walking earlier children changes nothing. */
  lemma {:induction false} WalkFromCancelledStays<T>(nodes: Arena<T>, rank: map<NodeId, nat>, bound: nat, n: NodeId, j: nat, i: nat,
                                                     run: T -> Outcome)
    requires WellFormed(nodes, rank, bound) && n in nodes && j <= i <= |Kids(nodes[n])|
    requires WalkFrom(nodes, rank, bound, n, i, run).cancelled
    ensures WalkFrom(nodes, rank, bound, n, j, run) == WalkFrom(nodes, rank, bound, n, i, run)
    decreases i - j
  {
    if j < i {
      WalkFromCancelledStays(nodes, rank, bound, n, j + 1, i, run);
    }
  }

  /** The parent of a node that has one, as a set. */
  ghost function ParentOf<T>(nodes: Arena<T>, n: NodeId): (r: set<NodeId>)
    requires n in nodes
  {
    if nodes[n].parent.Some? then {nodes[n].parent.value} else {}
  }

  /** The node's parent, if it has one, lists it. */
  ghost predicate Attached<T>(nodes: Arena<T>, n: NodeId)
    requires n in nodes
  {
    nodes[n].parent.Some? ==> nodes[n].parent.value in nodes && n in Kids(nodes[nodes[n].parent.value])
  }

  /** The objects owned by the nodes of `s`. */
  ghost function ObjectsOf<T>(nodes: Arena<T>, s: set<NodeId>): (r: set<T>)
  {
    set m | m in s && m in nodes :: nodes[m].obj
  }

  /**
   * Node `m` of `a` survives in `b` with its object and own stamp and a
   * child stamp no lower; its parent link changes only if it is in `ps`,
   * its child set only if it is in `cs`.
   */
  ghost predicate Kept<T>(a: Arena<T>, b: Arena<T>, ps: set<NodeId>, cs: set<NodeId>, m: NodeId)
    requires m in a && m in b
  {
    && b[m].obj == a[m].obj && b[m].own == a[m].own && b[m].childMod >= a[m].childMod
    && (m !in ps ==> b[m].parent == a[m].parent)
    && (m !in cs ==> b[m].children == a[m].children)
  }

  /** `b` grew out of `a` by changing parent links on `ps`, child sets on `cs`, and raising child stamps. */
  ghost predicate Evolved<T>(a: Arena<T>, b: Arena<T>, ps: set<NodeId>, cs: set<NodeId>)
  {
    a.Keys == b.Keys && forall m {:trigger Kept(a, b, ps, cs, m)} :: m in a ==> Kept(a, b, ps, cs, m)
  }

  /** Two evolutions in a row are one, on the unions of their sets or any larger sets. */
  lemma EvolvedTrans<T>(a: Arena<T>, b: Arena<T>, c: Arena<T>, ps1: set<NodeId>, cs1: set<NodeId>,
                        ps2: set<NodeId>, cs2: set<NodeId>, ps: set<NodeId>, cs: set<NodeId>)
    requires Evolved(a, b, ps1, cs1) && Evolved(b, c, ps2, cs2) && ps1 + ps2 <= ps && cs1 + cs2 <= cs
    ensures Evolved(a, c, ps, cs)
  {
    forall m | m in a
      ensures Kept(a, c, ps, cs, m)
    {
      assert Kept(a, b, ps1, cs1, m) && Kept(b, c, ps2, cs2, m);
    }
  }

  /** The objects of a union of node sets, over two arenas that keep every object. */
  lemma ObjectsOfUnion<T>(a: Arena<T>, b: Arena<T>, ps: set<NodeId>, cs: set<NodeId>, s1: set<NodeId>, s2: set<NodeId>)
    requires Evolved(a, b, ps, cs)
    ensures ObjectsOf(a, s1 + s2) == ObjectsOf(a, s1) + ObjectsOf(b, s2)
  {
    forall m | m in s2 && m in a
      ensures b[m].obj == a[m].obj
    {
      assert Kept(a, b, ps, cs, m);
    }
  }

  /**
   * Clearing the child set of `n` (`myChildren = null` during disposal)
   * keeps the arena well-formed and covered, and changes only `n`'s links.
   */
  lemma ClearChildren<T>(nodes: Arena<T>, rank: map<NodeId, nat>, bound: nat, n: NodeId)
    requires WellFormed(nodes, rank, bound) && Covered(nodes) && n in nodes
    ensures var r := nodes[n := nodes[n].(children := None)];
      WellFormed(r, rank, bound) && Covered(r) && Evolved(nodes, r, {}, {n})
  {
    var r := nodes[n := nodes[n].(children := None)];
    forall id | id in r
      ensures NodeOk(r, rank, bound, id) && Covers(r, id) && Kept(nodes, r, {}, {n}, id)
    {
      assert NodeOk(nodes, rank, bound, id);
      assert Covers(nodes, id);
    }
  }

  /** Widening the set of nodes whose links may change keeps an evolution one. */
  lemma EvolvedWiden<T>(a: Arena<T>, b: Arena<T>, ps1: set<NodeId>, cs1: set<NodeId>, ps: set<NodeId>, cs: set<NodeId>)
    requires Evolved(a, b, ps1, cs1) && ps1 <= ps && cs1 <= cs
    ensures Evolved(a, b, ps, cs)
  {
    forall m | m in a
      ensures Kept(a, b, ps, cs, m)
    {
      assert Kept(a, b, ps1, cs1, m);
    }
  }

  /** An arena evolves into itself. */
  lemma EvolvedRefl<T>(a: Arena<T>, ps: set<NodeId>, cs: set<NodeId>)
    ensures Evolved(a, a, ps, cs)
  {
    forall m | m in a
      ensures Kept(a, a, ps, cs, m)
    {
    }
  }

  /**
   * The state of a disposing walk over `n`'s children once those from `i`
   * on are done, against the state `start` it began in: their subtrees are
   * unlinked and their objects unbound in `objs`, `n` lists only the
   * children before `i`, and nothing else changed its links.
   */
  ghost predicate ChildrenDone<T>(start: Arena<T>, cur: Arena<T>, objs0: map<T, NodeId>, objs: map<T, NodeId>,
                                  rank: map<NodeId, nat>, bound: nat, n: NodeId, i: nat)
  {
    && WellFormed(start, rank, bound) && n in start && i <= |Kids(start[n])|
    && Evolved(start, cur, SubtreesFrom(start, rank, bound, n, i), SubtreesFrom(start, rank, bound, n, i) + {n})
    && Kids(cur[n]) == Kids(start[n])[..i]
    && (forall m :: m in SubtreesFrom(start, rank, bound, n, i) ==> cur[m].parent == None && cur[m].children == None)
    && objs == objs0 - ObjectsOf(start, SubtreesFrom(start, rank, bound, n, i))
  }

  /** Before any child is walked, nothing is done yet. */
  lemma ChildrenDoneStart<T>(start: Arena<T>, objs0: map<T, NodeId>, rank: map<NodeId, nat>, bound: nat, n: NodeId)
    requires WellFormed(start, rank, bound) && n in start
    ensures ChildrenDone(start, start, objs0, objs0, rank, bound, n, |Kids(start[n])|)
  {
    assert NodeOk(start, rank, bound, n);
    var done := SubtreesFrom(start, rank, bound, n, |Kids(start[n])|);
    EvolvedRefl(start, done, done + {n});
    assert Kids(start[n])[..|Kids(start[n])|] == Kids(start[n]);
    assert ObjectsOf(start, done) == {};
  }

  /**
   * The child at `i - 1` of a walk whose later children are done is ready
   * to be walked: it is still attached below `n`, and its subtree and walk
   * are those it had at the start.
   */
  lemma KidReady<T>(start: Arena<T>, cur: Arena<T>, rank: map<NodeId, nat>, bound: nat, n: NodeId, i: nat, run: T -> Outcome)
    requires WellFormed(start, rank, bound) && WellFormed(cur, rank, bound) && n in start
    requires 0 < i <= |Kids(start[n])|
    requires Evolved(start, cur, SubtreesFrom(start, rank, bound, n, i), SubtreesFrom(start, rank, bound, n, i) + {n})
    requires Kids(start[n])[i - 1] in Kids(cur[n])
    ensures var kid := Kids(start[n])[i - 1];
      && kid in start && kid in cur && rank[n] < rank[kid] < bound
      && cur[kid].parent == Some(n) && Attached(cur, kid) && ParentOf(cur, kid) == {n}
      && Subtree(cur, rank, bound, kid) == Subtree(start, rank, bound, kid)
      && Walk(cur, rank, bound, kid, run) == Walk(start, rank, bound, kid, run)
      && n !in Subtree(start, rank, bound, kid)
      && Subtree(start, rank, bound, kid) <= SubtreesFrom(start, rank, bound, n, 0)
      && SubtreesFrom(start, rank, bound, n, i - 1)
           == Subtree(start, rank, bound, kid) + SubtreesFrom(start, rank, bound, n, i)
      && Subtree(start, rank, bound, kid) !! SubtreesFrom(start, rank, bound, n, i)
  {
    var kid := Kids(start[n])[i - 1];
    KidRank(start, rank, bound, n, i - 1);
    assert NodeOk(start, rank, bound, n);
    SubtreesFromStep(start, rank, bound, n, i - 1);
    SubtreesFromWithin(start, rank, bound, n, 0, i - 1);
    var sub := Subtree(start, rank, bound, kid);
    if n in sub {
      SubtreeLine(start, rank, bound, kid, n);
    }
    assert kid in sub;
    var done := SubtreesFrom(start, rank, bound, n, i);
    assert Kept(start, cur, done, done + {n}, kid);
    forall m | m in sub
      ensures m in cur && cur[m].obj == start[m].obj && cur[m].children == start[m].children
    {
      assert Kept(start, cur, done, done + {n}, m);
    }
    WalkFrame(start, cur, rank, bound, kid, run);
  }

  /**
   * Disposing the child at `i - 1` moves a walk's state from "done from
   * `i`" to "done from `i - 1`".
   */
  lemma KidDisposed<T>(start: Arena<T>, here: Arena<T>, after: Arena<T>, objs0: map<T, NodeId>, objsHere: map<T, NodeId>,
                       objsAfter: map<T, NodeId>, rank: map<NodeId, nat>, bound: nat, n: NodeId, i: nat)
    requires WellFormed(here, rank, bound) && ChildrenDone(start, here, objs0, objsHere, rank, bound, n, i) && 0 < i
    requires var kid := Kids(start[n])[i - 1];
      && kid in here && ParentOf(here, kid) == {n}
      && Subtree(here, rank, bound, kid) == Subtree(start, rank, bound, kid)
      && SubtreeDisposed(here, after, objsHere, objsAfter, rank, bound, kid)
    ensures ChildrenDone(start, after, objs0, objsAfter, rank, bound, n, i - 1)
  {
    var ks := Kids(start[n]);
    var kid := ks[i - 1];
    var done := SubtreesFrom(start, rank, bound, n, i);
    var sub := Subtree(start, rank, bound, kid);
    KidRank(start, rank, bound, n, i - 1);
    assert NodeOk(start, rank, bound, n);
    SubtreesFromStep(start, rank, bound, n, i - 1);
    SubtreesFromWithin(start, rank, bound, n, i - 1, i);
    if n in sub {
      SubtreeLine(start, rank, bound, kid, n);
    }
    EvolvedTrans(start, here, after, done, done + {n}, sub, sub + {n},
                 SubtreesFrom(start, rank, bound, n, i - 1), SubtreesFrom(start, rank, bound, n, i - 1) + {n});
    RemoveLastOfPrefix(ks, i);
    forall m | m in done
      ensures after[m].parent == None && after[m].children == None
    {
      assert Kept(here, after, sub, sub + {n}, m);
    }
    UnboundInTurn(start, here, done, done + {n}, objs0, objsHere, objsAfter, done, sub);
  }

  /** Removing the last element of a prefix of a duplicate-free sequence leaves the shorter prefix. */
  lemma RemoveLastOfPrefix<T>(ks: seq<T>, i: nat)
    requires NoDup(ks) && 0 < i <= |ks|
    ensures Remove(ks[..i], ks[i - 1]) == ks[..i - 1]
  {
    assert NoDup(ks[..i]) by {
      forall a, b | 0 <= a < b < |ks[..i]| ensures ks[..i][a] != ks[..i][b] {
        assert ks[..i][a] == ks[a] && ks[..i][b] == ks[b];
      }
    }
    RemoveLast(ks[..i]);
    assert ks[..i][i - 1] == ks[i - 1] && ks[..i][..i - 1] == ks[..i - 1];
  }

  /** Unbinding the objects of one node set, then of another, unbinds those of their union. */
  lemma UnboundInTurn<T>(a: Arena<T>, b: Arena<T>, ps: set<NodeId>, cs: set<NodeId>, objs0: map<T, NodeId>,
                         objs1: map<T, NodeId>, objs2: map<T, NodeId>, s1: set<NodeId>, s2: set<NodeId>)
    requires Evolved(a, b, ps, cs)
    requires objs1 == objs0 - ObjectsOf(a, s1) && objs2 == objs1 - ObjectsOf(b, s2)
    ensures objs2 == objs0 - ObjectsOf(a, s1 + s2)
  {
    ObjectsOfUnion(a, b, ps, cs, s1, s2);
    assert objs2 == objs0 - (ObjectsOf(a, s1) + ObjectsOf(b, s2));
  }

  /**
   * Once the children of `n` are done, `n` keeps its parent link, its object
   * and its place in its parent's child set.
   */
  lemma ChildrenDoneAttached<T>(start: Arena<T>, mid: Arena<T>, rank: map<NodeId, nat>, bound: nat, n: NodeId)
    requires WellFormed(start, rank, bound) && n in start && Attached(start, n)
    requires Evolved(start, mid, SubtreesFrom(start, rank, bound, n, 0), SubtreesFrom(start, rank, bound, n, 0) + {n})
    ensures n in mid && mid[n].obj == start[n].obj && ParentOf(mid, n) == ParentOf(start, n) && Attached(mid, n)
    ensures start[n].parent.Some? ==> start[n].parent.value !in Subtree(start, rank, bound, n)
    ensures start[n].parent.Some? ==> mid[start[n].parent.value].children == start[start[n].parent.value].children
  {
    var done := SubtreesFrom(start, rank, bound, n, 0);
    SubtreesFromWithin(start, rank, bound, n, 0, 0);
    assert Kept(start, mid, done, done + {n}, n);
    if start[n].parent.Some? {
      var p := start[n].parent.value;
      assert NodeOk(start, rank, bound, n);
      if p in Subtree(start, rank, bound, n) {
        SubtreeLine(start, rank, bound, n, p);
      }
      assert Kept(start, mid, done, done + {n}, p);
    }
  }

  /**
   * The children's walk followed by `n`'s own disposal changes parent links
   * only inside `n`'s subtree and child sets only there and at its parent.
   */
  lemma NodeEvolved<T>(start: Arena<T>, mid: Arena<T>, final: Arena<T>, rank: map<NodeId, nat>, bound: nat, n: NodeId)
    requires WellFormed(start, rank, bound) && n in start
    requires Evolved(start, mid, SubtreesFrom(start, rank, bound, n, 0), SubtreesFrom(start, rank, bound, n, 0) + {n})
    requires n in mid && ParentOf(mid, n) == ParentOf(start, n)
    requires Evolved(mid, final, {n}, {n} + ParentOf(mid, n))
    ensures Evolved(start, final, Subtree(start, rank, bound, n), Subtree(start, rank, bound, n) + ParentOf(start, n))
  {
    assert NodeOk(start, rank, bound, n);
    var sub := Subtree(start, rank, bound, n);
    var done := SubtreesFrom(start, rank, bound, n, 0);
    EvolvedTrans(start, mid, final, done, done + {n}, {n}, {n} + ParentOf(start, n), sub, sub + ParentOf(start, n));
  }

  /**
   * After the children are done and `n` itself is disposed, the whole
   * subtree of `n` is unlinked and its objects unbound.
   */
  lemma NodeFinished<T>(start: Arena<T>, mid: Arena<T>, final: Arena<T>, objs0: map<T, NodeId>, objsMid: map<T, NodeId>,
                        objsFinal: map<T, NodeId>, rank: map<NodeId, nat>, bound: nat, n: NodeId)
    requires ChildrenDone(start, mid, objs0, objsMid, rank, bound, n, 0)
    requires n in mid && ParentOf(mid, n) == ParentOf(start, n)
    requires Evolved(mid, final, {n}, {n} + ParentOf(mid, n))
    requires final[n].parent == None && final[n].children == None
    requires objsFinal == objsMid - {start[n].obj}
    requires start[n].parent.Some? ==> var p := start[n].parent.value;
      p in mid && p in start && mid[p].children == start[p].children && Kids(final[p]) == Remove(Kids(mid[p]), n)
    ensures SubtreeDisposed(start, final, objs0, objsFinal, rank, bound, n)
  {
    assert NodeOk(start, rank, bound, n);
    var sub := Subtree(start, rank, bound, n);
    var done := SubtreesFrom(start, rank, bound, n, 0);
    SubtreesFromWithin(start, rank, bound, n, 0, 0);
    forall m | m in sub
      ensures final[m].parent == None && final[m].children == None
    {
      if m != n {
        assert Kept(mid, final, {n}, {n} + ParentOf(mid, n), m);
        if m in ParentOf(mid, n) {
          assert Kept(start, mid, done, done + {n}, n);
          assert NodeOk(start, rank, bound, n);
          SubtreeLine(start, rank, bound, n, m);
        }
      }
    }
    assert ObjectsOf(start, {n}) == {start[n].obj};
    UnboundInTurn(start, start, {}, {}, objs0, objsMid, objsFinal, done, {n}) by {
      EvolvedRefl(start, {}, {});
    }
    assert done + {n} == sub;
    NodeEvolved(start, mid, final, rank, bound, n);
  }

  /**
   * `start`'s subtree of `n` has been disposed of in `final`: its nodes are
   * unlinked, their objects unbound in `objs`, `n` left its parent's child
   * set, and nothing outside the subtree and the parent changed its links.
   */
  ghost predicate SubtreeDisposed<T>(start: Arena<T>, final: Arena<T>, objs0: map<T, NodeId>, objs: map<T, NodeId>,
                                     rank: map<NodeId, nat>, bound: nat, n: NodeId)
  {
    && WellFormed(start, rank, bound) && n in start
    && var sub := Subtree(start, rank, bound, n);
    && Evolved(start, final, sub, sub + ParentOf(start, n))
    && (forall m :: m in sub ==> final[m].parent == None && final[m].children == None)
    && objs == objs0 - ObjectsOf(start, sub)
    && (start[n].parent.Some? ==>
          assert NodeOk(start, rank, bound, n);
          Kids(final[start[n].parent.value]) == Remove(Kids(start[start[n].parent.value]), n))
  }

  /** Appending events in two steps appends their concatenation. */
  lemma Appended<T>(a: seq<Event<T>>, b: seq<Event<T>>, c: seq<Event<T>>)
    ensures a + b + c == a + (b + c)
  {
  }

  /** What a slice holds, the whole sequence holds. */
  lemma InSlice<U>(s: seq<U>, a: nat, b: nat, e: U)
    requires a <= b <= |s| && e in s[a..b]
    ensures e in s
  {
    var j :| 0 <= j < b - a && s[a..b][j] == e;
    assert s[a + j] == e;
  }
}

=== FILE: object_tree.dfy ===
/**
 * ObjectNode.java's operations on one tree, together with the part of its
 * ObjectTree collaborator they use: the object-to-node map, the root
 * objects, the modification counter and the set of nodes in execution. A
 * node is an id into the arena `nodes`; the source's per-node fields
 * (`myParent`, `myChildren`, `myChildModification`) are the fields of its
 * record there.
 */
module ObjectTrees {
  import opened Options
  import opened ObjectNodes

  class ObjectTree<T(==)> {
    var nodes: Arena<T>
    /** `putNode`'s map: each bound object to the node that owns it. */
    var objToNode: map<T, NodeId>
    var roots: set<T>
    /** The last value `getNextModification` handed out. */
    var modCount: int
    /** The guard set of `executeActionWithRecursiveGuard`. */
    var executing: set<NodeId>
    /** Everything the tree actions have been told and run, in order. */
    var trace: seq<Event<T>>
    /** The next fresh node id. */
    var nextId: NodeId
    ghost var rank: map<NodeId, nat>
    ghost var bound: nat

    /** The links are sound and every bound object maps to a node that owns it. */
    ghost predicate Shaped()
      reads this
    {
      && WellFormed(nodes, rank, bound)
      && (forall id :: id in nodes ==> id < nextId)
      && (forall o :: o in objToNode ==> objToNode[o] in nodes && nodes[objToNode[o]].obj == o)
    }

    /**
     * ... every parent's child stamp has caught up with its children, and
     * no stamp is ahead of the counter that hands them out.
     */
    ghost predicate Valid()
      reads this
    {
      && Shaped() && Covered(nodes)
      && modCount >= 0 && StampsUpTo(nodes, modCount)
    }

    constructor ()
      ensures Valid()
      ensures nodes == map[] && objToNode == map[] && roots == {} && modCount == 0
      ensures executing == {} && trace == []
    {
      nodes := map[];
      objToNode := map[];
      roots := {};
      modCount := 0;
      executing := {};
      trace := [];
      nextId := 0;
      rank := map[];
      bound := 0;
    }

    /** `getNextModification`: a stamp larger than every one handed out before. */
    method GetNextModification() returns (stamp: int)
      modifies this
      ensures stamp == modCount == old(modCount) + 1
      ensures nodes == old(nodes) && objToNode == old(objToNode) && roots == old(roots)
      ensures executing == old(executing) && trace == old(trace) && nextId == old(nextId)
      ensures rank == old(rank) && bound == old(bound)
    {
      modCount := modCount + 1;
      stamp := modCount;
    }

    /** `putNode`: binds the object to its node, or unbinds it for a null node. */
    method PutNode(o: T, node: Option<NodeId>)
      requires Shaped()
      requires node.Some? ==> node.value in nodes && nodes[node.value].obj == o
      modifies this
      ensures Shaped()
      ensures objToNode == if node.Some? then old(objToNode)[o := node.value] else old(objToNode) - {o}
      ensures nodes == old(nodes) && roots == old(roots) && modCount == old(modCount)
      ensures executing == old(executing) && trace == old(trace) && nextId == old(nextId)
      ensures rank == old(rank) && bound == old(bound)
    {
      if node.Some? {
        objToNode := objToNode[o := node.value];
      } else {
        objToNode := objToNode - {o};
      }
    }

    /** `removeRootObject`. */
    method RemoveRootObject(o: T)
      modifies this
      ensures roots == old(roots) - {o}
      ensures nodes == old(nodes) && objToNode == old(objToNode) && modCount == old(modCount)
      ensures executing == old(executing) && trace == old(trace) && nextId == old(nextId)
      ensures rank == old(rank) && bound == old(bound)
    {
      roots := roots - {o};
    }

    /**
     * The ObjectNode constructor: a node for `obj` with the given parent link
     * and own stamp, no child set and a zero child stamp. The parent does not
     * list it until `addChild`.
     */
    method NewNode(parent: Option<NodeId>, obj: T, modification: int) returns (id: NodeId)
      requires Valid()
      requires parent.Some? ==> parent.value in nodes
      requires modification <= modCount
      modifies this
      ensures Valid()
      ensures id !in old(nodes)
      ensures nodes == old(nodes)[id := Node(obj, parent, None, modification, 0)]
      ensures objToNode == old(objToNode) && roots == old(roots) && modCount == old(modCount)
      ensures executing == old(executing) && trace == old(trace)
    {
      id := nextId;
      nextId := nextId + 1;
      NewNodeWellFormed(nodes, rank, bound, id, Node(obj, parent, None, modification, 0));
      UpdatedUpTo(nodes, id, Node(obj, parent, None, modification, 0), modCount);
      nodes := nodes[id := Node(obj, parent, None, modification, 0)];
      rank := rank[id := if parent.Some? then rank[parent.value] + 1 else 0];
      bound := bound + 1;
    }

    /** The children of `n` in insertion order (`getChildren`; empty for a null child set). */
    function Children(n: NodeId): (r: seq<NodeId>)
      reads this
      requires Valid() && n in nodes
      ensures NoDup(r)
      ensures forall i :: 0 <= i < |r| ==> r[i] in nodes && nodes[r[i]].parent == Some(n)
      ensures nodes[n].children.None? ==> r == []
    {
      assert NodeOk(nodes, rank, bound, n);
      Kids(nodes[n])
    }

    /** `getChildrenArray`: a snapshot of the children, later changes to the child set do not reach it. */
    method GetChildrenArray(n: NodeId) returns (snapshot: seq<NodeId>)
      requires Valid() && n in nodes
      ensures snapshot == Children(n)
    {
      if nodes[n].children.None? || |nodes[n].children.value| == 0 {
        return [];
      }
      snapshot := nodes[n].children.value;
    }

    /**
     * `propagateChildModification(s)`: raises the child stamp of `x` and of
     * its ancestors to `s`, climbing only while that raises something.
     */
    method Propagate(x: NodeId, s: int)
      requires Shaped() && x in nodes
      modifies this
      ensures Shaped() && rank == old(rank) && bound == old(bound)
      ensures nodes == Propagated(old(nodes), rank, bound, x, s)
      ensures objToNode == old(objToNode) && roots == old(roots) && modCount == old(modCount)
      ensures executing == old(executing) && trace == old(trace) && nextId == old(nextId)
      decreases rank[x]
    {
      PropagatedStamps(nodes, rank, bound, x, s);
      assert NodeOk(nodes, rank, bound, x);
      if nodes[x].childMod < s {
        nodes := nodes[x := nodes[x].(childMod := s)];
        ShapeWellFormed(old(nodes), nodes, rank, bound);
        if nodes[x].parent.Some? {
          Propagate(nodes[x].parent.value, s);
        }
      }
    }

    /**
     * The linking steps of `addChild(c)` on `p`: `ensureChildArray`, then
     * `c`'s parent becomes `p` and `c` joins `p`'s child set. Until the
     * stamp climbs, only `p` may lag behind its new child.
     */
    method LinkChild(p: NodeId, c: NodeId)
      requires Valid() && p in nodes && c in nodes
      requires nodes[c].parent.None? || nodes[c].parent == Some(p)
      requires c !in Line(nodes, rank, bound, p)
      modifies this
      ensures rank == Rerank(old(nodes), old(rank), old(bound), c, old(rank[p]) + 1)
      ensures bound == old(bound) + old(rank[p]) + 1
      ensures nodes == Attach(old(nodes), p, c)
      ensures Shaped() && CoveredExcept(nodes, p, Modification(old(nodes[c])))
      ensures objToNode == old(objToNode) && roots == old(roots) && modCount == old(modCount)
      ensures executing == old(executing) && trace == old(trace) && nextId == old(nextId)
    {
      AttachWellFormed(nodes, rank, bound, p, c);
      AttachCovers(nodes, rank, bound, p, c);
      var linked := nodes;
      if linked[p].children.None? {
        linked := linked[p := linked[p].(children := Some([]))];
      }
      linked := linked[c := linked[c].(parent := Some(p))];
      linked := linked[p := linked[p].(children := Some(AddToSet(linked[p].children.value, c)))];
      assert linked == Attach(nodes, p, c);
      rank, bound := Rerank(nodes, rank, bound, c, rank[p] + 1), bound + rank[p] + 1;
      nodes := linked;
    }

    /**
     * `addChild(c)` on `p`: links `c` below `p`, binds `c`'s object to `c`
     * in the map, and propagates `c`'s modification up from `p`.
     */
    method AddChild(p: NodeId, c: NodeId)
      requires Valid() && p in nodes && c in nodes
      requires nodes[c].parent.None? || nodes[c].parent == Some(p)
      requires c !in Line(nodes, rank, bound, p)
      modifies this
      ensures Valid()
      ensures rank == Rerank(old(nodes), old(rank), old(bound), c, old(rank[p]) + 1)
      ensures bound == old(bound) + old(rank[p]) + 1
      ensures nodes == AddedChild(old(nodes), old(rank), old(bound), p, c)
      ensures objToNode == old(objToNode)[old(nodes[c].obj) := c]
      ensures roots == old(roots) && modCount == old(modCount)
      ensures executing == old(executing) && trace == old(trace) && nextId == old(nextId)
    {
      AttachUpTo(nodes, p, c, modCount);
      LinkChild(p, c);
      ghost var linked := nodes;
      PutNode(nodes[c].obj, Some(c));
      assert linked[c].own == old(nodes[c].own) && linked[c].childMod == old(nodes[c].childMod);
      Propagate(p, Modification(nodes[c]));
      PropagatedCovers(linked, rank, bound, p, Modification(linked[c]));
      assert StampOk(linked, modCount, c);
      PropagatedUpTo(linked, rank, bound, p, Modification(linked[c]), modCount);
    }

    /**
     * `removeChild(c)` on `p`, whose child set must exist: if `c` is in it, it
     * leaves the set, its parent link is cleared, its object is unbound and
     * a fresh stamp is propagated up from `p`; otherwise nothing changes and
     * no stamp is used.
     */
    method RemoveChild(p: NodeId, c: NodeId)
      requires Valid() && p in nodes && nodes[p].children.Some?
      modifies this
      ensures Valid() && rank == old(rank) && bound == old(bound)
      ensures c in Kids(old(nodes[p])) ==>
        && c in old(nodes)
        && WellFormed(Detach(old(nodes), p, c), rank, bound)
        && modCount == old(modCount) + 1
        && nodes == Propagated(Detach(old(nodes), p, c), rank, bound, p, modCount)
        && objToNode == old(objToNode) - {old(nodes[c].obj)}
      ensures c !in Kids(old(nodes[p])) ==>
        nodes == old(nodes) && objToNode == old(objToNode) && modCount == old(modCount)
      ensures roots == old(roots) && executing == old(executing) && trace == old(trace) && nextId == old(nextId)
    {
      if c in nodes[p].children.value {
        var before := nodes;
        RemoveChildEffect(nodes, rank, bound, p, c, modCount + 1);
        nodes := nodes[p := nodes[p].(children := Some(Remove(nodes[p].children.value, c)))];
        nodes := nodes[c := nodes[c].(parent := None)];
        assert nodes == Detach(before, p, c);
        PutNode(nodes[c].obj, None);
        var stamp := GetNextModification();
        Propagate(p, stamp);
      }
    }

    /**
     * The loop of `execute` over the snapshot of `n`'s children, from the
     * last one to the first, stopping at a cancellation.
     */
    method ExecuteChildren(n: NodeId, snapshot: seq<NodeId>, disposeTree: bool, run: T -> Outcome) returns (cancelled: bool)
      requires Valid() && n in nodes && snapshot == Kids(nodes[n])
      requires SubtreesFrom(nodes, rank, bound, n, 0) !! executing
      modifies this
      ensures Valid() && rank == old(rank) && bound == old(bound)
      ensures nextId == old(nextId) && executing == old(executing) && roots == old(roots)
      ensures trace == old(trace) + WalkFrom(old(nodes), rank, bound, n, 0, run).events
      ensures cancelled == WalkFrom(old(nodes), rank, bound, n, 0, run).cancelled
      ensures !disposeTree ==> nodes == old(nodes) && objToNode == old(objToNode) && modCount == old(modCount)
      ensures disposeTree ==> Evolved(old(nodes), nodes, SubtreesFrom(old(nodes), rank, bound, n, 0),
                                      SubtreesFrom(old(nodes), rank, bound, n, 0) + {n})
      ensures disposeTree ==> modCount >= old(modCount) && objToNode.Keys <= old(objToNode).Keys
      ensures disposeTree && !cancelled ==> ChildrenDone(old(nodes), nodes, old(objToNode), objToNode, rank, bound, n, 0)
      decreases bound - rank[n], 1
    {
      ghost var start := nodes;
      ghost var rk, bd := rank, bound;
      ChildrenDoneStart(nodes, objToNode, rank, bound, n);
      var i := |snapshot|;
      while i > 0
        invariant 0 <= i <= |snapshot|
        invariant Valid() && rank == rk && bound == bd
        invariant nextId == old(nextId) && executing == old(executing) && roots == old(roots)
        invariant trace == old(trace) + WalkFrom(start, rk, bd, n, i, run).events
        invariant !WalkFrom(start, rk, bd, n, i, run).cancelled
        invariant !disposeTree ==> nodes == start && objToNode == old(objToNode) && modCount == old(modCount)
        invariant disposeTree ==> ChildrenDone(start, nodes, old(objToNode), objToNode, rk, bd, n, i)
        invariant disposeTree ==> modCount >= old(modCount) && objToNode.Keys <= old(objToNode).Keys
      {
        var c := ExecuteChild(n, snapshot[i - 1], i, disposeTree, run, start, rk, bd, old(objToNode), old(trace), old(modCount));
        if c {
          return true;
        }
        i := i - 1;
      }
      return false;
    }

    /**
     * One turn of that loop: `execute` on the child at `i - 1`, once the
     * children from `i` on have been walked (and, when disposing, taken
     * apart) since the state `start`.
     */
    method ExecuteChild(n: NodeId, kid: NodeId, i: nat, disposeTree: bool, run: T -> Outcome,
                        ghost start: Arena<T>, ghost rk: map<NodeId, nat>, ghost bd: nat, ghost objs0: map<T, NodeId>, ghost trace0: seq<Event<T>>, ghost mod0: int)
      returns (cancelled: bool)
      requires Valid() && rank == rk && bound == bd && WellFormed(start, rk, bd) && n in start
      requires 0 < i <= |Kids(start[n])| && kid == Kids(start[n])[i - 1]
      requires SubtreesFrom(start, rk, bd, n, 0) !! executing
      requires trace == trace0 + WalkFrom(start, rk, bd, n, i, run).events
      requires !WalkFrom(start, rk, bd, n, i, run).cancelled
      requires !disposeTree ==> nodes == start && objToNode == objs0 && modCount == mod0
      requires disposeTree ==> ChildrenDone(start, nodes, objs0, objToNode, rk, bd, n, i)
      requires disposeTree ==> modCount >= mod0 && objToNode.Keys <= objs0.Keys
      modifies this
      ensures Valid() && rank == rk && bound == bd
      ensures nextId == old(nextId) && executing == old(executing) && roots == old(roots)
      ensures trace == trace0 + WalkFrom(start, rk, bd, n, i - 1, run).events
      ensures cancelled == WalkFrom(start, rk, bd, n, i - 1, run).cancelled
      ensures cancelled ==> WalkFrom(start, rk, bd, n, 0, run) == WalkFrom(start, rk, bd, n, i - 1, run)
      ensures !disposeTree ==> nodes == start && objToNode == objs0 && modCount == mod0
      ensures disposeTree ==> Evolved(start, nodes, SubtreesFrom(start, rk, bd, n, 0),
                                      SubtreesFrom(start, rk, bd, n, 0) + {n})
      ensures disposeTree ==> modCount >= mod0 && objToNode.Keys <= objs0.Keys
      ensures disposeTree && !cancelled ==> ChildrenDone(start, nodes, objs0, objToNode, rk, bd, n, i - 1)
      decreases bd - rk[n], 0
    {
      ghost var here := nodes;
      ghost var objsHere := objToNode;
      ghost var done := SubtreesFrom(start, rk, bd, n, i);
      if !disposeTree {
        EvolvedRefl(nodes, done, done + {n});
      }
      assert kid in Kids(nodes[n]) by {
        if disposeTree {
          assert Kids(start[n])[..i][i - 1] == kid;
        }
      }
      KidReady(start, nodes, rk, bd, n, i, run);
      cancelled := Execute(kid, disposeTree, run);
      ghost var later := WalkFrom(start, rk, bd, n, i, run);
      ghost var w := Walk(start, rk, bd, kid, run);
      assert WalkFrom(start, rk, bd, n, i - 1, run) == Run(later.events + w.events, cancelled);
      Appended(trace0, later.events, w.events);
      if cancelled {
        WalkFromCancelledStays(start, rk, bd, n, 0, i - 1, run);
      }
      if disposeTree {
        ghost var sub := Subtree(start, rk, bd, kid);
        ghost var all := SubtreesFrom(start, rk, bd, n, 0);
        SubtreesFromWithin(start, rk, bd, n, 0, i - 1);
        EvolvedTrans(start, here, nodes, done, done + {n}, sub, sub + {n}, all, all + {n});
        if !cancelled {
          KidDisposed(start, here, nodes, objs0, objsHere, objToNode, rk, bd, n, i);
        }
      }
    }

    /**
     * The end of a disposing `execute` on `n`: the object is unbound from
     * its node, and the node leaves its parent's child set (stamping the
     * parent's line) or, without a parent, the roots lose its object.
     */
    method Unbind(n: NodeId)
      requires Valid() && n in nodes && Attached(nodes, n)
      modifies this
      ensures Valid() && rank == old(rank) && bound == old(bound)
      ensures nextId == old(nextId) && executing == old(executing) && trace == old(trace)
      ensures objToNode == old(objToNode) - {old(nodes[n].obj)}
      ensures modCount == if old(nodes[n].parent).Some? then old(modCount) + 1 else old(modCount)
      ensures roots == if old(nodes[n].parent).None? then old(roots) - {old(nodes[n].obj)} else old(roots)
      ensures Evolved(old(nodes), nodes, {n}, ParentOf(old(nodes), n))
      ensures nodes[n].parent == None && nodes[n].children == old(nodes[n].children)
      ensures old(nodes[n].parent).Some? ==>
        Kids(nodes[old(nodes[n].parent).value]) == Remove(Kids(old(nodes[nodes[n].parent.value])), n)
      ensures old(nodes[n].parent).Some? ==>
        && WellFormed(Detach(old(nodes), old(nodes[n].parent.value), n), rank, bound)
        && nodes == Propagated(Detach(old(nodes), old(nodes[n].parent.value), n), rank, bound, old(nodes[n].parent.value), modCount)
        && LineStamped(nodes, rank, bound, old(nodes[n].parent.value), modCount)
    {
      var o := nodes[n].obj;
      PutNode(o, None);
      if nodes[n].parent.Some? {
        var p := nodes[n].parent.value;
        assert NodeOk(nodes, rank, bound, n);
        assert StampsUpTo(nodes, modCount + 1 - 1);
        RemoveChildEffect(nodes, rank, bound, p, n, modCount + 1);
        RemoveChildFrame(nodes, rank, bound, p, n, modCount + 1);
        RemoveChild(p, n);
      } else {
        RemoveRootObject(o);
        EvolvedRefl(nodes, {n}, {});
      }
    }

    /**
     * The part of `execute` after the children: when disposing, clears the
     * child set; runs the action on the object; unless it was cancelled and
     * when disposing, unbinds the object and unlinks the node from its
     * parent, or drops its object from the roots when it has none.
     */
    method RunAndUnlink(n: NodeId, disposeTree: bool, run: T -> Outcome) returns (cancelled: bool)
      requires Valid() && n in nodes && Attached(nodes, n)
      modifies this
      ensures Valid() && rank == old(rank) && bound == old(bound)
      ensures nextId == old(nextId) && executing == old(executing)
      ensures trace == old(trace) + [Ran(old(nodes[n].obj), run(old(nodes[n].obj)))]
      ensures cancelled == (run(old(nodes[n].obj)) == Cancelled)
      ensures !disposeTree ==> nodes == old(nodes) && objToNode == old(objToNode) && modCount == old(modCount)
      ensures roots == if disposeTree && !cancelled && old(nodes[n].parent).None? then old(roots) - {old(nodes[n].obj)} else old(roots)
      ensures disposeTree ==> Evolved(old(nodes), nodes, {n}, {n} + ParentOf(old(nodes), n)) && nodes[n].children == None
      ensures disposeTree && cancelled ==> objToNode == old(objToNode) && modCount == old(modCount)
      ensures disposeTree && !cancelled ==>
        && nodes[n].parent == None && objToNode == old(objToNode) - {old(nodes[n].obj)}
        && modCount >= old(modCount)
      ensures disposeTree && !cancelled && old(nodes[n].parent).Some? ==>
        Kids(nodes[old(nodes[n].parent).value]) == Remove(Kids(old(nodes[nodes[n].parent.value])), n)
      ensures disposeTree && !cancelled && old(nodes[n].parent).Some? ==>
        LineStamped(nodes, rank, bound, old(nodes[n].parent.value), modCount)
    {
      var o := nodes[n].obj;
      ghost var start := nodes;
      assert NodeOk(nodes, rank, bound, n);
      if disposeTree {
        ClearChildren(nodes, rank, bound, n);
        assert StampOk(nodes, modCount, n);
        UpdatedUpTo(nodes, n, nodes[n].(children := None), modCount);
        nodes := nodes[n := nodes[n].(children := None)];
      }
      var outcome := run(o);
      trace := trace + [Ran(o, outcome)];
      if outcome == Cancelled {
        if disposeTree {
          EvolvedWiden(start, nodes, {}, {n}, {n}, {n} + ParentOf(start, n));
        }
        return true;
      }
      if disposeTree {
        ghost var cleared := nodes;
        Unbind(n);
        EvolvedTrans(start, cleared, nodes, {}, {n}, {n}, ParentOf(start, n), {n}, {n} + ParentOf(start, n));
      }
      return false;
    }

    /**
     * The end of `execute` on `n` once its children were walked without a
     * cancellation from the state `start`, whose object map was `objs0` and
     * whose counter was `mod0`: `RunAndUnlink`, stated against that state.
     */
    method RunNode(n: NodeId, disposeTree: bool, run: T -> Outcome, ghost start: Arena<T>, ghost objs0: map<T, NodeId>,
                   ghost mod0: int)
      returns (cancelled: bool)
      requires Valid() && WellFormed(start, rank, bound) && n in start && Attached(start, n)
      requires !disposeTree ==> nodes == start && objToNode == objs0 && modCount == mod0
      requires disposeTree ==> ChildrenDone(start, nodes, objs0, objToNode, rank, bound, n, 0)
      requires disposeTree ==> modCount >= mod0 && objToNode.Keys <= objs0.Keys
      modifies this
      ensures Valid() && rank == old(rank) && bound == old(bound)
      ensures nextId == old(nextId) && executing == old(executing)
      ensures trace == old(trace) + [Ran(start[n].obj, run(start[n].obj))]
      ensures cancelled == (run(start[n].obj) == Cancelled)
      ensures roots == if disposeTree && !cancelled && start[n].parent.None? then old(roots) - {start[n].obj} else old(roots)
      ensures !disposeTree ==> nodes == start && objToNode == objs0 && modCount == mod0
      ensures disposeTree ==> Evolved(start, nodes, Subtree(start, rank, bound, n),
                                      Subtree(start, rank, bound, n) + ParentOf(start, n))
      ensures disposeTree ==> modCount >= mod0 && objToNode.Keys <= objs0.Keys
      ensures disposeTree && !cancelled ==> SubtreeDisposed(start, nodes, objs0, objToNode, rank, bound, n)
      ensures disposeTree && !cancelled && start[n].parent.Some? ==>
        start[n].parent.value in nodes && LineStamped(nodes, rank, bound, start[n].parent.value, modCount)
    {
      ghost var mid := nodes;
      ghost var objsMid := objToNode;
      if disposeTree {
        ChildrenDoneAttached(start, nodes, rank, bound, n);
      }
      cancelled := RunAndUnlink(n, disposeTree, run);
      if disposeTree {
        if cancelled {
          NodeEvolved(start, mid, nodes, rank, bound, n);
        } else {
          NodeFinished(start, mid, nodes, objs0, objsMid, objToNode, rank, bound, n);
        }
      }
    }

    /**
     * `execute(disposeTree, action)` on `n`: tells the action about `n`'s
     * object, walks the children from last to first, then runs the action on
     * the object itself. A failing action is logged and the walk goes on; a
     * cancellation ends it. When disposing, each node has its child set
     * cleared before its action, and after it the object is unbound and the
     * node unlinked from its parent, or its object dropped from the roots.
     */
    method Execute(n: NodeId, disposeTree: bool, run: T -> Outcome) returns (cancelled: bool)
      requires Valid() && n in nodes && Attached(nodes, n)
      requires Subtree(nodes, rank, bound, n) !! executing
      modifies this
      ensures Valid() && rank == old(rank) && bound == old(bound)
      ensures nextId == old(nextId) && executing == old(executing)
      ensures trace == old(trace) + Walk(old(nodes), rank, bound, n, run).events
      ensures cancelled == Walk(old(nodes), rank, bound, n, run).cancelled
      ensures !disposeTree ==> nodes == old(nodes) && objToNode == old(objToNode) && modCount == old(modCount)
      ensures roots == if disposeTree && !cancelled && old(nodes[n].parent).None? then old(roots) - {old(nodes[n].obj)} else old(roots)
      ensures disposeTree ==> Evolved(old(nodes), nodes, Subtree(old(nodes), rank, bound, n),
                                      Subtree(old(nodes), rank, bound, n) + ParentOf(old(nodes), n))
      ensures disposeTree ==> modCount >= old(modCount) && objToNode.Keys <= old(objToNode).Keys
      ensures disposeTree && !cancelled ==> SubtreeDisposed(old(nodes), nodes, old(objToNode), objToNode, rank, bound, n)
      ensures disposeTree && !cancelled && old(nodes[n].parent).Some? ==>
        old(nodes[n].parent.value) in nodes && LineStamped(nodes, rank, bound, old(nodes[n].parent.value), modCount)
      decreases bound - rank[n], 2
    {
      ghost var start := nodes;
      ghost var rk, bd := rank, bound;
      assert NodeOk(nodes, rank, bound, n);
      ghost var sub := Subtree(nodes, rank, bound, n);
      ghost var done := SubtreesFrom(nodes, rank, bound, n, 0);
      SubtreesFromWithin(nodes, rank, bound, n, 0, 0);
      ghost var o := nodes[n].obj;
      ghost var inner := WalkFrom(start, rk, bd, n, 0, run);
      executing := executing + {n};
      trace := trace + [Before(nodes[n].obj)];
      var snapshot := GetChildrenArray(n);
      cancelled := ExecuteChildren(n, snapshot, disposeTree, run);
      assert trace == old(trace) + ([Before(o)] + inner.events);
      if !cancelled {
        cancelled := RunNode(n, disposeTree, run, start, old(objToNode), old(modCount));
        assert trace == old(trace) + ([Before(o)] + inner.events + [Ran(o, run(o))]);
      } else if disposeTree {
        EvolvedWiden(start, nodes, done, done + {n}, sub, sub + ParentOf(start, n));
      }
      executing := executing - {n};
    }

    /**
     * `findChildEqualTo`: the object of the first child, in insertion order,
     * whose object `equalTo` accepts (the source's `equals` against the
     * argument), or none.
     */
    method FindChildEqualTo(n: NodeId, equalTo: T -> bool) returns (r: Option<T>)
      requires Valid() && n in nodes
      ensures r.None? <==> forall i :: 0 <= i < |Children(n)| ==> !equalTo(nodes[Children(n)[i]].obj)
      ensures r.Some? ==>
        exists i :: 0 <= i < |Children(n)| && nodes[Children(n)[i]].obj == r.value && equalTo(r.value)
          && forall j :: 0 <= j < i ==> !equalTo(nodes[Children(n)[j]].obj)
    {
      assert NodeOk(nodes, rank, bound, n);
      if nodes[n].children.None? {
        return None;
      }
      var children := nodes[n].children.value;
      var i := 0;
      while i < |children|
        invariant 0 <= i <= |children|
        invariant forall j :: 0 <= j < i ==> !equalTo(nodes[children[j]].obj)
      {
        var nodeObject := nodes[children[i]].obj;
        if equalTo(nodeObject) {
          assert children == Children(n);
          return Some(nodeObject);
        }
        i := i + 1;
      }
      return None;
    }

    /**
     * `assertNoReferencesKept(d)`: checks `n`'s object and then, in
     * insertion order, each child's subtree; it fails (`ok` is false) exactly
     * when some node of the subtree owns `d`.
     */
    method AssertNoReferencesKept(n: NodeId, d: T) returns (ok: bool)
      requires Valid() && n in nodes
      ensures ok <==> forall m :: m in Subtree(nodes, rank, bound, n) ==> nodes[m].obj != d
      decreases bound - rank[n]
    {
      assert NodeOk(nodes, rank, bound, n);
      if nodes[n].obj == d {
        return false;
      }
      if nodes[n].children.None? {
        return true;
      }
      var children := nodes[n].children.value;
      var i := 0;
      while i < |children|
        invariant 0 <= i <= |children|
        invariant forall j :: 0 <= j < i ==> forall m :: m in Subtree(nodes, rank, bound, children[j]) ==> nodes[m].obj != d
      {
        KidRank(nodes, rank, bound, n, i);
        ok := AssertNoReferencesKept(children[i], d);
        if !ok {
          SubtreesFromStep(nodes, rank, bound, n, i);
          SubtreesFromWithin(nodes, rank, bound, n, 0, i);
          return false;
        }
        i := i + 1;
      }
      forall m | m in SubtreesFrom(nodes, rank, bound, n, 0) ensures nodes[m].obj != d {
        var j := SubtreesFromWitness(nodes, rank, bound, n, 0, m);
      }
      return true;
    }
  }
}

=== FILE: options.dfy ===
/** The optional value used for the source's nullable references. */
module Options {

  datatype Option<+T> = None | Some(value: T)
}

=== FILE: vfs_util_core.dfy ===
/**
 * The ancestor and relative-path helpers of VfsUtilCore.
 *
 * A virtual file is a record in a finite table: the file system it lives on,
 * its name and its parent directory. File identity (`equals`, `==` on
 * VirtualFile) is identity of table keys. The parent relation is acyclic;
 * every member receives a ghost `depth` map that witnesses it (a parent is
 * strictly shallower than its child).
 */
module VfsUtilCore {
  import opened Options

  type FileId = nat

  /** One virtual file: its file system, its name and its parent (None for a root). */
  datatype VirtualFile = VirtualFile(fileSystem: nat, name: string, parent: Option<FileId>)

  type FileTable = map<FileId, VirtualFile>

  /** The parent of `f`, if any, is in the table and strictly shallower than `f`. */
  ghost predicate ParentShallower(fs: FileTable, depth: map<FileId, nat>, f: FileId)
    requires f in fs
  {
    && f in depth
    && (fs[f].parent.Some? ==>
          fs[f].parent.value in fs && fs[f].parent.value in depth && depth[fs[f].parent.value] < depth[f])
  }

  /** Every parent is in the table and strictly shallower than its child: the parent relation is acyclic. */
  ghost predicate Valid(fs: FileTable, depth: map<FileId, nat>)
  {
    && fs.Keys <= depth.Keys
    && forall f {:trigger ParentShallower(fs, depth, f)} :: f in fs ==> ParentShallower(fs, depth, f)
  }

  // ---------------------------------------------------------------------------
  // The walk up the parent chain
  // ---------------------------------------------------------------------------

  /** The files met walking up from `f`: `f`, its parent, its grandparent, ..., a root. */
  function Chain(fs: FileTable, ghost depth: map<FileId, nat>, f: FileId): (c: seq<FileId>)
    requires Valid(fs, depth) && f in fs
    ensures 1 <= |c| && c[0] == f
    ensures forall i :: 0 <= i < |c| ==> c[i] in fs
    decreases depth[f]
  {
    assert ParentShallower(fs, depth, f);
    match fs[f].parent
    case None => [f]
    case Some(p) => [f] + Chain(fs, depth, p)
  }

  /** Consecutive files of the chain are child and parent; the last one is a root. */
  lemma {:induction false} ChainLinks(fs: FileTable, depth: map<FileId, nat>, f: FileId, k: nat)
    requires Valid(fs, depth) && f in fs
    requires k < |Chain(fs, depth, f)|
    ensures var c := Chain(fs, depth, f);
      fs[c[k]].parent == if k + 1 < |c| then Some(c[k + 1]) else None
    decreases depth[f]
  {
    assert ParentShallower(fs, depth, f);
    if k > 0 {
      ChainLinks(fs, depth, fs[f].parent.value, k - 1);
    }
  }

  /** Every file above `f` on its chain is strictly shallower than `f`. */
  lemma {:induction false} ChainRises(fs: FileTable, depth: map<FileId, nat>, f: FileId, k: nat)
    requires Valid(fs, depth) && f in fs
    requires 0 < k < |Chain(fs, depth, f)|
    ensures depth[Chain(fs, depth, f)[k]] < depth[f]
    decreases depth[f]
  {
    assert ParentShallower(fs, depth, f);
    var p := fs[f].parent.value;
    if k > 1 {
      ChainRises(fs, depth, p, k - 1);
    }
  }

  /** A file is never its own strict ancestor. */
  lemma StrictChainExcludesSelf(fs: FileTable, depth: map<FileId, nat>, f: FileId)
    requires Valid(fs, depth) && f in fs
    ensures f !in Chain(fs, depth, f)[1..]
  {
    var c := Chain(fs, depth, f);
    forall k | 1 <= k < |c| ensures c[k] != f {
      ChainRises(fs, depth, f, k);
    }
  }

  /** The files `isAncestor` compares with the ancestor: from `file` itself, or from its parent when strict. */
  function Lineage(fs: FileTable, ghost depth: map<FileId, nat>, file: FileId, strict: bool): (r: seq<FileId>)
    requires Valid(fs, depth) && file in fs
  {
    if strict then Chain(fs, depth, file)[1..] else Chain(fs, depth, file)
  }

  /** The answer of the VirtualFile overload of `isAncestor`. */
  predicate IsAncestorOf(fs: FileTable, ghost depth: map<FileId, nat>, ancestor: FileId, file: FileId, strict: bool)
    requires Valid(fs, depth) && ancestor in fs && file in fs
  {
    fs[file].fileSystem == fs[ancestor].fileSystem && ancestor in Lineage(fs, depth, file, strict)
  }

  /** A non-strict test accepts the file itself; a strict one never does. */
  lemma AncestorReflexivity(fs: FileTable, depth: map<FileId, nat>, f: FileId)
    requires Valid(fs, depth) && f in fs
    ensures IsAncestorOf(fs, depth, f, f, false)
    ensures !IsAncestorOf(fs, depth, f, f, true)
  {
    StrictChainExcludesSelf(fs, depth, f);
  }

  /** A strict ancestor is a non-strict ancestor of the parent, and the converse. */
  lemma StrictIsParentLineage(fs: FileTable, depth: map<FileId, nat>, a: FileId, f: FileId)
    requires Valid(fs, depth) && a in fs && f in fs
    requires fs[f].parent.Some? && fs[f].parent.value in fs
    ensures var p := fs[f].parent.value;
      IsAncestorOf(fs, depth, a, f, true) <==>
        fs[f].fileSystem == fs[a].fileSystem && a in Lineage(fs, depth, p, false)
  {
  }

  /** `isAncestor(VirtualFile, VirtualFile, boolean)`: walks up from `file` (or its parent). */
  method IsAncestor(fs: FileTable, ghost depth: map<FileId, nat>, ancestor: FileId, file: FileId, strict: bool)
    returns (r: bool)
    requires Valid(fs, depth) && ancestor in fs && file in fs
    ensures r <==> fs[file].fileSystem == fs[ancestor].fileSystem && ancestor in Lineage(fs, depth, file, strict)
  {
    if fs[file].fileSystem != fs[ancestor].fileSystem {
      return false;
    }
    ghost var c := Chain(fs, depth, file);
    ghost var start := if strict then 1 else 0;
    ghost var k := start;
    ChainLinks(fs, depth, file, 0);
    var parent := if strict then fs[file].parent else Some(file);
    while true
      invariant start <= k <= |c|
      invariant parent == if k < |c| then Some(c[k]) else None
      invariant ancestor !in c[start..k]
      decreases |c| - k
    {
      if parent.None? {
        assert c[start..k] == c[start..];
        return false;
      }
      if parent.value == ancestor {
        return true;
      }
      ChainLinks(fs, depth, file, k);
      parent := fs[parent.value].parent;
      k := k + 1;
    }
  }

  /**
   * `isAncestor(File, File, boolean)`: the java.io.File overload, over the
   * same table; it has no file-system check.
   */
  method IsAncestorIo(fs: FileTable, ghost depth: map<FileId, nat>, ancestor: FileId, file: FileId, strict: bool)
    returns (r: bool)
    requires Valid(fs, depth) && ancestor in fs && file in fs
    ensures r <==> ancestor in Lineage(fs, depth, file, strict)
  {
    ghost var c := Chain(fs, depth, file);
    ghost var start := if strict then 1 else 0;
    ghost var k := start;
    ChainLinks(fs, depth, file, 0);
    var parent := if strict then fs[file].parent else Some(file);
    while parent.Some?
      invariant start <= k <= |c|
      invariant parent == if k < |c| then Some(c[k]) else None
      invariant ancestor !in c[start..k]
      decreases |c| - k
    {
      if parent.value == ancestor {
        return true;
      }
      ChainLinks(fs, depth, file, k);
      parent := fs[parent.value].parent;
      k := k + 1;
    }
    assert c[start..k] == c[start..];
    return false;
  }

  // ---------------------------------------------------------------------------
  // Relative paths
  // ---------------------------------------------------------------------------

  /** The elements of `c` before the first occurrence of `a` (all of `c` if `a` is absent). */
  function Before<T(==)>(c: seq<T>, a: T): (r: seq<T>)
    ensures |r| <= |c| && r == c[..|r|] && a !in r
    ensures |r| < |c| ==> c[|r|] == a
  {
    if c == [] || c[0] == a then [] else [c[0]] + Before(c[1..], a)
  }

  /** When `a` first occurs at `k`, the elements before it are the first `k`. */
  lemma {:induction false} BeforeAt<T>(c: seq<T>, a: T, k: nat)
    requires k < |c| && c[k] == a && a !in c[..k]
    ensures Before(c, a) == c[..k]
  {
    if k > 0 {
      assert c[0] in c[..k];
      assert c[1..][..k - 1] == c[..k][1..];
      BeforeAt(c[1..], a, k - 1);
    }
  }

  /** No element before the first occurrence of `a` is `a`. */
  lemma NotBeforeIndex<T>(c: seq<T>, a: T, k: nat, j: nat)
    requires j < k <= |c| && a !in c[..k]
    ensures c[j] != a
  {
    assert c[..k][j] == c[j];
  }

  /** The names of the given files, in the same order. */
  function NamesOf(fs: FileTable, ids: seq<FileId>): (ns: seq<string>)
    requires forall i :: 0 <= i < |ids| ==> ids[i] in fs
  {
    seq(|ids|, i requires 0 <= i < |ids| => fs[ids[i]].name)
  }

  /** The sequence in the opposite order. */
  function Reverse<T>(s: seq<T>): (r: seq<T>)
    ensures |r| == |s|
  {
    if s == [] then [] else [s[|s| - 1]] + Reverse(s[..|s| - 1])
  }

  /** Position `i` of the reversed sequence holds position `|s| - 1 - i` of the original. */
  lemma {:induction false} ReverseAt<T>(s: seq<T>, i: nat)
    requires i < |s|
    ensures Reverse(s)[i] == s[|s| - 1 - i]
  {
    if i > 0 {
      ReverseAt(s[..|s| - 1], i - 1);
    }
  }

  /** The names with one separator between each pair of consecutive names. */
  function Join(names: seq<string>, separator: char): (r: string)
  {
    if |names| == 0 then ""
    else if |names| == 1 then names[0]
    else names[0] + [separator] + Join(names[1..], separator)
  }

  /** A bottom-up name list without the empty names at its start. */
  function Trim(names: seq<string>): (r: seq<string>)
    ensures |r| <= |names| && r == names[|names| - |r|..]
    ensures r == [] || r[0] != ""
  {
    if names != [] && names[0] == "" then Trim(names[1..]) else names
  }

  /**
   * The string getRelativePath assembles from the names met walking up
   * (bottom-up order): the names from the top down, joined by the
   * separator. A separator is only written once something has been written,
   * so empty names at the bottom of the walk leave no separator behind.
   */
  function Assembled(names: seq<string>, separator: char): (r: string)
  {
    Join(Reverse(Trim(names)), separator)
  }

  /** The result of `getRelativePath(file, ancestor, separator)`. */
  function RelativePath(fs: FileTable, ghost depth: map<FileId, nat>, file: FileId, ancestor: FileId, separator: char)
    : (r: Option<string>)
    requires Valid(fs, depth) && file in fs && ancestor in fs
  {
    if fs[file].fileSystem != fs[ancestor].fileSystem then None
    else if ancestor !in Chain(fs, depth, file) then None
    else Some(Assembled(NamesOf(fs, Before(Chain(fs, depth, file), ancestor)), separator))
  }

  /** The last name of a non-empty join ends the joined string. */
  lemma {:induction false} JoinEndsWithLast(names: seq<string>, separator: char)
    requires |names| >= 1
    ensures |Join(names, separator)| >= |names[|names| - 1]|
  {
    if |names| > 1 {
      JoinEndsWithLast(names[1..], separator);
    }
  }

  /** Appending a name at the bottom of the walk. */
  lemma {:induction false} TrimSnoc(names: seq<string>, x: string)
    ensures Trim(names + [x]) ==
      if Trim(names) == [] then (if x == "" then [] else [x]) else Trim(names) + [x]
  {
    if names != [] {
      assert (names + [x])[1..] == names[1..] + [x];
      if names[0] == "" {
        TrimSnoc(names[1..], x);
      }
    }
  }

  /** One more name met on the walk up goes in front, after a separator if anything is already there. */
  lemma AssembledStep(names: seq<string>, x: string, separator: char)
    ensures Assembled(names + [x], separator) ==
      if Assembled(names, separator) == "" then x else x + [separator] + Assembled(names, separator)
  {
    TrimSnoc(names, x);
    var t := Trim(names);
    if t != [] {
      JoinEndsWithLast(Reverse(t), separator);
      assert Assembled(names, separator) != "";
      assert (t + [x])[..|t|] == t;
      assert Reverse(t + [x]) == [x] + Reverse(t);
      assert ([x] + Reverse(t))[1..] == Reverse(t);
    }
  }

  /**
   * The length the first walk of getRelativePath computes from the names met
   * so far (bottom-up): one separator once the length is positive, then the name.
   */
  function MeasuredLength(names: seq<string>): (r: nat)
  {
    if names == [] then 0
    else
      var before := MeasuredLength(names[..|names| - 1]);
      (if before > 0 then before + 1 else 0) + |names[|names| - 1]|
  }

  /**
   * The text the second walk of getRelativePath has written at the end of its
   * array after the given names (bottom-up): each name goes in front, after a
   * separator if anything has been written already.
   */
  function FilledText(names: seq<string>, separator: char): (r: string)
  {
    if names == [] then ""
    else
      var written := FilledText(names[..|names| - 1], separator);
      names[|names| - 1] + (if written == "" then "" else [separator]) + written
  }

  /** The backward fill produces exactly the top-down join of the (trimmed) names. */
  lemma {:induction false} FilledTextIsAssembled(names: seq<string>, separator: char)
    ensures FilledText(names, separator) == Assembled(names, separator)
  {
    if names != [] {
      var init := names[..|names| - 1];
      FilledTextIsAssembled(init, separator);
      assert names == init + [names[|names| - 1]];
      AssembledStep(init, names[|names| - 1], separator);
    }
  }

  /** The first walk computes exactly the length of what the second walk writes. */
  lemma {:induction false} MeasuredLengthIsFilledLength(names: seq<string>, separator: char)
    ensures MeasuredLength(names) == |FilledText(names, separator)|
  {
    if names != [] {
      MeasuredLengthIsFilledLength(names[..|names| - 1], separator);
    }
  }

  /** The measured length never shrinks as more names are met. */
  lemma {:induction false} MeasuredLengthGrows(names: seq<string>, j: nat, k: nat)
    requires j <= k <= |names|
    ensures MeasuredLength(names[..j]) <= MeasuredLength(names[..k])
    decreases k - j
  {
    if j < k {
      assert names[..j + 1][..j] == names[..j];
      MeasuredLengthGrows(names, j + 1, k);
    }
  }

  /** The names of a prefix of the files are a prefix of their names. */
  lemma NamesOfPrefix(fs: FileTable, ids: seq<FileId>, k: nat)
    requires forall i :: 0 <= i < |ids| ==> ids[i] in fs
    requires k <= |ids|
    ensures NamesOf(fs, ids[..k]) == NamesOf(fs, ids)[..k]
  {
  }

  /**
   * The first walk of `getRelativePath`: up from `file` until `ancestor` or a
   * root is passed, adding each name's length and one separator between names
   * once the length is positive.
   */
  method MeasureRelativePath(fs: FileTable, ghost depth: map<FileId, nat>, file: FileId, ancestor: FileId)
    returns (found: bool, length: nat)
    requires Valid(fs, depth) && file in fs && ancestor in fs
    ensures found <==> ancestor in Chain(fs, depth, file)
    ensures found ==> length == MeasuredLength(NamesBelow(fs, depth, file, ancestor))
  {
    ghost var c := Chain(fs, depth, file);
    ghost var ns := NamesOf(fs, c);
    length := 0;
    var parent := Some(file);
    ghost var k := 0;
    while true
      invariant 0 <= k <= |c|
      invariant parent == if k < |c| then Some(c[k]) else None
      invariant ancestor !in c[..k]
      invariant length == MeasuredLength(ns[..k])
      decreases |c| - k
    {
      if parent.None? {
        assert c[..k] == c;
        return false, length;
      }
      if parent.value == ancestor {
        break;
      }
      assert ns[..k + 1][..k] == ns[..k];
      if length > 0 {
        length := length + 1;
      }
      length := length + |fs[parent.value].name|;
      ChainLinks(fs, depth, file, k);
      parent := fs[parent.value].parent;
      k := k + 1;
    }
    BeforeAt(c, ancestor, k);
    NamesOfPrefix(fs, c, k);
    found := true;
  }

  /** Writes `name` backwards just before `index`, so that it precedes what is already there. */
  method WriteBackwards(chars: array<char>, index: nat, name: string) returns (newIndex: nat)
    requires |name| <= index <= chars.Length
    modifies chars
    ensures newIndex == index - |name|
    ensures chars[newIndex..] == name + old(chars[index..])
    ensures forall k :: 0 <= k < newIndex ==> chars[k] == old(chars[k])
  {
    newIndex := index;
    var i := |name|;
    while i > 0
      invariant 0 <= i <= |name|
      invariant newIndex == index - (|name| - i)
      invariant forall k :: newIndex <= k < index ==> chars[k] == name[k - newIndex + i]
      invariant forall k :: index <= k < chars.Length ==> chars[k] == old(chars[k])
      invariant forall k :: 0 <= k < newIndex ==> chars[k] == old(chars[k])
    {
      i := i - 1;
      newIndex := newIndex - 1;
      chars[newIndex] := name[i];
    }
    assert forall k :: 0 <= k < chars.Length - newIndex ==> chars[newIndex..][k] == (name + old(chars[index..]))[k];
  }

  /**
   * One step of the second walk: the name goes in front of what is already
   * written, after a separator when something is.
   */
  method PrependName(chars: array<char>, index: nat, name: string, separator: char) returns (newIndex: nat)
    requires index <= chars.Length
    requires |name| + (if index < chars.Length then 1 else 0) <= index
    modifies chars
    ensures newIndex == index - |name| - (if index < chars.Length then 1 else 0)
    ensures chars[newIndex..] == name + (if old(chars[index..]) == "" then "" else [separator]) + old(chars[index..])
    ensures forall k :: 0 <= k < newIndex ==> chars[k] == old(chars[k])
  {
    newIndex := index;
    if newIndex < chars.Length {
      newIndex := WriteBackwards(chars, newIndex, [separator]);
    }
    newIndex := WriteBackwards(chars, newIndex, name);
  }

  /**
   * One step of the second walk, on the chain: below the ancestor, each file's
   * parent is the next one in the chain and its name the next name met.
   */
  lemma WalkStep(fs: FileTable, depth: map<FileId, nat>, file: FileId, ancestor: FileId, j: nat)
    requires Valid(fs, depth) && file in fs
    requires ancestor in Chain(fs, depth, file)
    requires j < |NamesBelow(fs, depth, file, ancestor)|
    ensures var c := Chain(fs, depth, file);
      var below := NamesBelow(fs, depth, file, ancestor);
      j + 1 < |c| && fs[c[j]].parent == Some(c[j + 1]) && fs[c[j]].name == below[j]
      && (j + 1 < |below| ==> c[j + 1] != ancestor)
  {
    var c := Chain(fs, depth, file);
    var k := |Before(c, ancestor)|;
    assert k < |c|;
    assert NamesBelow(fs, depth, file, ancestor)[j] == fs[c[..k][j]].name;
    ChainLinks(fs, depth, file, j);
    if j + 1 < k {
      NotBeforeIndex(c, ancestor, k, j + 1);
    }
  }

  /** One step of the second walk, on the text: the next name goes in front. */
  lemma FillStep(names: seq<string>, j: nat, separator: char)
    requires j < |names|
    ensures var written := FilledText(names[..j], separator);
      FilledText(names[..j + 1], separator) == names[j] + (if written == "" then "" else [separator]) + written
    ensures |FilledText(names[..j + 1], separator)| <= |FilledText(names, separator)|
  {
    assert names[..j + 1][..j] == names[..j];
    assert names[..|names|] == names;
    MeasuredLengthGrows(names, j + 1, |names|);
    MeasuredLengthIsFilledLength(names[..j + 1], separator);
    MeasuredLengthIsFilledLength(names, separator);
  }

  /**
   * The second walk of `getRelativePath`: fills an array of the measured
   * length from its end, a separator before each name except the first one
   * written, each name written backwards.
   */
  method FillRelativePath(fs: FileTable, ghost depth: map<FileId, nat>, file: FileId, ancestor: FileId, separator: char,
                          length: nat)
    returns (s: string)
    requires Valid(fs, depth) && file in fs && ancestor in fs
    requires ancestor in Chain(fs, depth, file)
    requires length == MeasuredLength(NamesBelow(fs, depth, file, ancestor))
    ensures s == FilledText(NamesBelow(fs, depth, file, ancestor), separator)
  {
    ghost var c := Chain(fs, depth, file);
    ghost var below := NamesBelow(fs, depth, file, ancestor);
    ghost var k := |below|;
    assert k < |c| && c[k] == ancestor;
    if 0 < k {
      NotBeforeIndex(c, ancestor, k, 0);
    }
    MeasuredLengthIsFilledLength(below, separator);
    var chars := new char[length];
    var index := chars.Length;
    var parent := Some(file);
    ghost var j := 0;
    while true
      invariant 0 <= j <= k
      invariant parent == Some(c[j])
      invariant j < k ==> c[j] != ancestor
      invariant 0 <= index <= length
      invariant index == length - |FilledText(below[..j], separator)|
      invariant chars[index..] == FilledText(below[..j], separator)
      decreases k - j
    {
      if parent.value == ancestor {
        assert j == k;
        break;
      }
      WalkStep(fs, depth, file, ancestor, j);
      FillStep(below, j, separator);
      index := PrependName(chars, index, fs[parent.value].name, separator);
      parent := fs[parent.value].parent;
      j := j + 1;
    }
    assert below[..k] == below;
    assert chars[..] == chars[0..];
    s := chars[..];
  }

  /** `getRelativePath(file, ancestor, separator)`: measures, then fills. */
  method GetRelativePath(fs: FileTable, ghost depth: map<FileId, nat>, file: FileId, ancestor: FileId, separator: char)
    returns (r: Option<string>)
    requires Valid(fs, depth) && file in fs && ancestor in fs
    ensures r == RelativePath(fs, depth, file, ancestor, separator)
  {
    if fs[file].fileSystem != fs[ancestor].fileSystem {
      return None;
    }
    var found, length := MeasureRelativePath(fs, depth, file, ancestor);
    if !found {
      return None;
    }
    var s := FillRelativePath(fs, depth, file, ancestor, separator, length);
    FilledTextIsAssembled(NamesBelow(fs, depth, file, ancestor), separator);
    return Some(s);
  }

  /** `getRelativePath(f, f, separator)` is the empty string. */
  lemma RelativePathToSelf(fs: FileTable, depth: map<FileId, nat>, f: FileId, separator: char)
    requires Valid(fs, depth) && f in fs
    ensures RelativePath(fs, depth, f, f, separator) == Some("")
  {
  }

  /** A relative path exists exactly when `ancestor` is a non-strict ancestor of `file`. */
  lemma RelativePathExistsIffAncestor(fs: FileTable, depth: map<FileId, nat>, file: FileId, ancestor: FileId, separator: char)
    requires Valid(fs, depth) && file in fs && ancestor in fs
    ensures RelativePath(fs, depth, file, ancestor, separator).Some? <==> IsAncestorOf(fs, depth, ancestor, file, false)
  {
  }

  /** The sum of the lengths of the names. */
  function TotalLength(names: seq<string>): (r: nat)
  {
    if names == [] then 0 else |names[0]| + TotalLength(names[1..])
  }

  /** A join is as long as its names plus one separator between each consecutive pair. */
  lemma {:induction false} JoinLength(names: seq<string>, separator: char)
    requires |names| >= 1
    ensures |Join(names, separator)| == TotalLength(names) + |names| - 1
  {
    if |names| > 1 {
      JoinLength(names[1..], separator);
    }
  }

  lemma {:induction false} TotalLengthSnoc(names: seq<string>, x: string)
    ensures TotalLength(names + [x]) == TotalLength(names) + |x|
  {
    if names != [] {
      assert (names + [x])[1..] == names[1..] + [x];
      TotalLengthSnoc(names[1..], x);
    }
  }

  lemma {:induction false} TotalLengthReverse(names: seq<string>)
    ensures TotalLength(Reverse(names)) == TotalLength(names)
  {
    if names != [] {
      var init := names[..|names| - 1];
      TotalLengthReverse(init);
      assert Reverse(names)[1..] == Reverse(init);
      assert names == init + [names[|names| - 1]];
      TotalLengthSnoc(init, names[|names| - 1]);
    }
  }

  /** Names strictly below the ancestor on the walk up from `file`, bottom-up. */
  function NamesBelow(fs: FileTable, ghost depth: map<FileId, nat>, file: FileId, ancestor: FileId): (r: seq<string>)
    requires Valid(fs, depth) && file in fs
  {
    NamesOf(fs, Before(Chain(fs, depth, file), ancestor))
  }

  /**
   * With non-empty names, the relative path is those names from just below
   * the ancestor down to `file`, joined by the separator, and its length is
   * the sum of their lengths plus one separator per consecutive pair.
   */
  lemma RelativePathIsJoin(fs: FileTable, depth: map<FileId, nat>, file: FileId, ancestor: FileId, separator: char)
    requires Valid(fs, depth) && file in fs && ancestor in fs
    requires IsAncestorOf(fs, depth, ancestor, file, false)
    requires forall n <- NamesBelow(fs, depth, file, ancestor) :: n != ""
    ensures var names := NamesBelow(fs, depth, file, ancestor);
      && RelativePath(fs, depth, file, ancestor, separator) == Some(Join(Reverse(names), separator))
      && |Join(Reverse(names), separator)| == TotalLength(names) + (if names == [] then 0 else |names| - 1)
  {
    var names := NamesBelow(fs, depth, file, ancestor);
    if names != [] {
      assert names[0] in names;
    }
    assert Trim(names) == names;
    if names != [] {
      JoinLength(Reverse(names), separator);
      TotalLengthReverse(names);
    }
  }

  /** Splits a string at every occurrence of the separator. */
  function Split(s: string, separator: char): (parts: seq<string>)
    ensures |parts| >= 1
  {
    if s == [] then [""]
    else
      var rest := Split(s[1..], separator);
      if s[0] == separator then [""] + rest else [[s[0]] + rest[0]] + rest[1..]
  }

  lemma {:induction false} SplitPrefix(p: string, t: string, separator: char)
    requires separator !in p
    ensures Split(p + t, separator) == [p + Split(t, separator)[0]] + Split(t, separator)[1..]
  {
    if p != [] {
      assert (p + t)[1..] == p[1..] + t;
      SplitPrefix(p[1..], t, separator);
      assert [p[0]] + (p[1..] + Split(t, separator)[0]) == p + Split(t, separator)[0];
    } else {
      assert p + t == t;
      assert p + Split(t, separator)[0] == Split(t, separator)[0];
      assert Split(t, separator) == [Split(t, separator)[0]] + Split(t, separator)[1..];
    }
  }

  /** Joining names that do not contain the separator and splitting again gives the names back. */
  lemma {:induction false} SplitJoin(names: seq<string>, separator: char)
    requires |names| >= 1
    requires forall i :: 0 <= i < |names| ==> separator !in names[i]
    ensures Split(Join(names, separator), separator) == names
  {
    if |names| == 1 {
      SplitPrefix(names[0], "", separator);
      assert names[0] + "" == names[0];
    } else {
      var rest := Join(names[1..], separator);
      SplitJoin(names[1..], separator);
      assert names[0] + [separator] + rest == names[0] + ([separator] + rest);
      SplitPrefix(names[0], [separator] + rest, separator);
      assert ([separator] + rest)[1..] == rest;
      assert Split([separator] + rest, separator) == [""] + Split(rest, separator);
      assert names[0] + "" == names[0];
      assert names == [names[0]] + names[1..];
    }
  }

  /** A relative path built from separator-free, non-empty names splits back into those names, top-down. */
  lemma RelativePathSplits(fs: FileTable, depth: map<FileId, nat>, file: FileId, ancestor: FileId, separator: char)
    requires Valid(fs, depth) && file in fs && ancestor in fs
    requires IsAncestorOf(fs, depth, ancestor, file, false) && file != ancestor
    requires forall n <- NamesBelow(fs, depth, file, ancestor) :: n != "" && separator !in n
    ensures Split(RelativePath(fs, depth, file, ancestor, separator).value, separator)
      == Reverse(NamesBelow(fs, depth, file, ancestor))
  {
    var names := NamesBelow(fs, depth, file, ancestor);
    RelativePathIsJoin(fs, depth, file, ancestor, separator);
    assert |names| >= 1 by {
      assert Chain(fs, depth, file)[0] == file;
    }
    var rev := Reverse(names);
    forall i | 0 <= i < |rev| ensures separator !in rev[i] {
      ReverseAt(names, i);
      assert rev[i] in names;
    }
    SplitJoin(rev, separator);
  }

  // ---------------------------------------------------------------------------
  // Links
  // ---------------------------------------------------------------------------

  /**
   * `isInvalidLink(link)`: the canonical target of the link (resolved by the
   * file system, given here as `target`) is missing, is the link itself, or
   * is a strict ancestor of the link.
   */
  method IsInvalidLink(fs: FileTable, ghost depth: map<FileId, nat>, link: FileId, target: Option<FileId>)
    returns (r: bool)
    requires Valid(fs, depth) && link in fs
    requires target.Some? ==> target.value in fs
    ensures r <==>
      || target.None?
      || target.value == link
      || (fs[link].fileSystem == fs[target.value].fileSystem && target.value in Chain(fs, depth, link)[1..])
  {
    if target.None? || target.value == link {
      return true;
    }
    r := IsAncestor(fs, depth, target.value, link, true);
  }

  /** A link whose target is one of its strict ancestors is invalid even though the target exists. */
  lemma LinkToAncestorIsCycle(fs: FileTable, depth: map<FileId, nat>, link: FileId, target: FileId)
    requires Valid(fs, depth) && link in fs && target in fs
    requires IsAncestorOf(fs, depth, target, link, true)
    ensures target != link
    ensures IsAncestorOf(fs, depth, target, link, false)
  {
    StrictChainExcludesSelf(fs, depth, link);
  }
}
